=== FILE: README.md ===
# EasyEnglish core, modelled in Dafny

EasyEnglish is a Next.js application for practising English grammar through
translation. A learner translates a Chinese sentence, a language model scores
the translation, and the score is stored. Statistics show each grammar type's
average, pass rate and weak points. Administrators page through the practice
sentences and create new ones, by hand or from language-model suggestions.

This project models the deterministic logic of that application as pure
Dafny functions over immutable datatypes and proves properties about it:

- the two language-model routes (`practice/evaluate`, `admin/generate`):
  prompt filling by chained first-occurrence `replace`, greedy `{…}` / `[…]`
  extraction, and the classification into status and message;
- the statistics route and page: half-up rounded averages and pass rates, the
  grand total, the weak-point filter with its stable sort, and the colour bands;
- the request guards: the bearer header, `requireAdmin`, `getUserId`;
- register and login as a transition and a query on a user table; the
  nickname check and normalisation of the profile route;
- the paged sentence listing and batch creation, with the admin page's
  pager, create form and generate / select / confirm flow;
- the practice-record routes: the field copy and the capped listing;
- the home page's grouping by level, and the profile page's derived views.

Everything the routes delegate elsewhere is a parameter:
- `callModel` stands for `callKimi`, and `parse` for `JSON.parse`;
- `Verifier` stands for `verifyToken`, and `Signer` for `signToken`;
- `hash` and `check` stand for bcrypt;
- `insert` stands for the database refusing or accepting a row.

A parameter answers `None` where the real call throws. Database tables are
sequences already in the order the query asks for. A handler that throws
outside its `try` is `Body.Crash`, Next.js's bare 500.

| file | module | models |
|---|---|---|
| wrappers.dfy | Wrappers | `Option`, `Result`, JavaScript truthiness of strings |
| http.dfy | Http | responses, guard refusals, the prompt-sent record |
| text.dfy | Text | `indexOf`, `replace`, `trim`, `split('@')[0]`, `String(n)` |
| extraction.dfy | Extraction | the greedy delimiter-span regular expressions |
| template.dfy | Template | three chained placeholder replacements |
| tokens.dfy | Tokens | JWT payload and the `Bearer ` header |
| admin_guard.dfy | AdminGuard | `src/lib/admin.ts` |
| grammar.dfy | Grammar | grammar types and levels |
| evaluate.dfy | Evaluate | `src/app/api/practice/evaluate/route.ts` |
| generate.dfy | Generate | `src/app/api/admin/generate/route.ts` |
| stats.dfy | Stats | `src/app/api/stats/route.ts` |
| stats_page.dfy | StatsPage | `src/app/stats/page.tsx` |
| admin_sentences.dfy | AdminSentences | `src/app/api/admin/sentences/route.ts` |
| admin_page.dfy | AdminPage | `src/app/admin/page.tsx` |
| users.dfy | Users | the user table |
| accounts.dfy | Accounts | `src/app/api/auth/register/route.ts`, `src/app/api/auth/login/route.ts` |
| user_profile.dfy | UserProfile | `src/app/api/user/profile/route.ts` |
| profile_page.dfy | ProfilePage | `src/app/profile/page.tsx` |
| home_page.dfy | HomePage | `src/app/page.tsx` |
| practice_records.dfy | PracticeRecords | `src/app/api/practice/records/route.ts` |

Points where the routes behave in a way a reader might not expect:
- a reply whose extracted object does not parse is reported as "AI
  评分服务暂时不可用", not as a format error;
- the parsed reply is returned without any field, type or 0–100 check;
- there is no error-span processing;
- a refused record insert is answered with 401 `认证失败` rather than being
  swallowed.

## Model

| member | source | states |
|---|---|---|
| Text.IndexFrom | src/app/api/practice/evaluate/route.ts:29-31 | the result is the first occurrence of the pattern at or after the start, and `None` means there is none |
| Text.ReplaceFirst | src/app/api/practice/evaluate/route.ts:29-31 | with no occurrence the text comes back unchanged; otherwise the text before the first occurrence is kept, the replacement stands where the pattern began, the rest after the pattern follows, and the length changes by the difference |
| Text.ReplaceAfter | src/app/api/practice/evaluate/route.ts:29-31 | `replace` with a string pattern rewrites the first occurrence only: a pattern behind pattern-free text is replaced there and the rest is kept |
| Text.ReplaceKeepsPrefix | src/app/api/practice/evaluate/route.ts:29-31 | a prefix free of the pattern whose last character is foreign to it survives a replacement |
| Text.Trim | src/app/api/user/profile/route.ts:41-47 | the result has no surrounding whitespace; it is the input less its leading and trailing whitespace; it is empty iff the input is all whitespace; trimmed text is left alone |
| Text.TrimIdempotent | src/app/api/user/profile/route.ts:47 | trimming twice is trimming once |
| Text.BeforeFirst | src/app/profile/page.tsx:108 | `split('@')[0]` is a prefix without the separator, and it stops right at the first separator if there is one |
| Text.NatToStringRoundTrip | src/app/api/admin/generate/route.ts:44 | `String(n)` of a natural number reads back as `n` |
| Extraction.GreedyBounds | src/app/api/practice/evaluate/route.ts:36 | `None` iff no opening delimiter has a closing one after it; otherwise the leftmost start with its longest span |
| Extraction.GreedyMatchUnique | src/app/api/practice/evaluate/route.ts:36 | the leftmost-longest span is unique |
| Extraction.GreedyMatch | src/app/api/practice/evaluate/route.ts:36 | the matched text is the greedy span, and there is no match iff no span exists |
| Extraction.MatchIffFirstBeforeLast | src/app/api/admin/generate/route.ts:48 | the pattern matches iff the first opening delimiter precedes the last closing one, and the match is the slice between them inclusive |
| Template.FillInPlace | src/app/api/practice/evaluate/route.ts:29-31 | three chained replacements put each value exactly where its placeholder stood and keep the template text, unless a value carries a later placeholder |
| Template.FillSequential | src/app/api/practice/evaluate/route.ts:29-31 | the replacements run one after another: a first value equal to the second placeholder is itself filled by the second call, and the template's own second placeholder is left standing |
| Template.FillKeepsHead | src/app/api/practice/evaluate/route.ts:29-31 | whatever the values hold, the template text before its first placeholder still opens the result |
| Evaluate.Post | src/app/api/practice/evaluate/route.ts:22-47 | an unreadable body crashes; a missing field is 400 `缺少必要参数` with no prompt sent; otherwise the filled prompt is sent, and the reply is classified |
| Evaluate.Judge | src/app/api/practice/evaluate/route.ts:33-46 | model failure is 500 unavailable; no `{…}` span is 500 `AI 返回格式异常`; a span that does not parse is 500 unavailable; a parsed span is returned unchanged with 200 |
| Evaluate.BuildPrompt | src/app/api/practice/evaluate/route.ts:29-31 | for any field values the prompt opens with the template's fixed introduction; `Evaluate.PromptFillsTemplate` and `Evaluate.ReplacementIsSequential` give the full text |
| Evaluate.MissingFieldSkipsModel | src/app/api/practice/evaluate/route.ts:25-27 | with a field missing, the answer does not depend on the model or the parser |
| Evaluate.MalformedObjectIsUnavailable | src/app/api/practice/evaluate/route.ts:41-45 | a found object that fails to parse is reported as the service being unavailable |
| Evaluate.PromptFillsTemplate | src/app/api/practice/evaluate/route.ts:4-31 | the prompt is the template text with the grammar type, sentence and translation in place of their placeholders |
| Evaluate.ReplacementIsSequential | src/app/api/practice/evaluate/route.ts:29-30 | a grammar type reading `{chinese}` receives the sentence, and the template's own `{chinese}` survives |
| Generate.EffectiveCount | src/app/api/admin/generate/route.ts:30 | the count is 5 exactly when the field is absent, and the given count otherwise |
| Generate.LevelLabel | src/app/api/admin/generate/route.ts:36-43 | the three levels become 初级/中级/高级, and any other level is used as it is |
| Generate.BuildPrompt | src/app/api/admin/generate/route.ts:42-44 | for any type, level and count the prompt opens with the template's fixed introduction; `Generate.PromptFillsTemplate` gives the full text |
| Generate.KnownLevelLabelIsPlain | src/app/api/admin/generate/route.ts:36-43 | a mapped level label holds no `{count}` placeholder |
| Generate.PromptFillsTemplate | src/app/api/admin/generate/route.ts:5-44 | the prompt is the template with grammar type, level label and decimal count in place |
| Generate.Post | src/app/api/admin/generate/route.ts:26-58 | a guard refusal comes first and as it is; an unreadable body crashes; a missing field is 400 `缺少 grammarType 或 level` with no prompt sent; otherwise the filled prompt is sent |
| Generate.Ask | src/app/api/admin/generate/route.ts:46-57 | model failure or an unparsable `[…]` span is 500 `AI 生成服务暂时不可用`; no span is 500 `AI 返回格式异常`; a parsed value is returned unchecked under `sentences` |
| Tokens.BearerToken | src/lib/admin.ts:6-11 | a token exists iff the header starts, case-sensitively, with `Bearer `; the token is the header less those seven characters |
| Tokens.BearerRoundTrip | src/lib/admin.ts:11 | `Bearer ` plus a token yields that token back |
| AdminGuard.RequireAdmin | src/lib/admin.ts:4-19 | no bearer header is 401 `未登录`; a failed verification is 401 `认证失败`; a non-ADMIN role is 403 `无管理员权限`; the payload is returned iff its role is exactly `ADMIN` |
| AdminGuard.NoHeaderNoVerification | src/lib/admin.ts:6-8 | without a bearer header the verifier's answer makes no difference |
| Stats.RoundHalfUp | src/app/api/stats/route.ts:27 | the result `r` satisfies r − ½ ≤ a/b < r + ½ |
| Stats.RoundWithin | src/app/api/stats/route.ts:26-31 | rounding a quotient bounded by two integers stays within them |
| Stats.Average | src/app/api/stats/route.ts:26-28 | 0 for no scores; otherwise within half a point of the mean, halves rounding up |
| Stats.AverageWithin | src/app/api/stats/route.ts:26-28 | the average lies between any lower and upper bound of the scores, hence between their minimum and maximum |
| Stats.PassRate | src/app/api/stats/route.ts:29-31 | always in 0..100; 100 when every score is ≥ 60; 0 when none is; otherwise the rounded percentage of passing scores |
| Stats.ScoresOf | src/app/api/stats/route.ts:19-22 | at most one score per record, and each score is that of one of the caller's records of the type |
| Stats.ScoresOfAppend | src/app/api/stats/route.ts:19-22 | selecting scores distributes over concatenation, so the scores keep the record order |
| Stats.ScoresOfOne | src/app/api/stats/route.ts:20 | one record gives its score exactly when it is the caller's and of the type |
| Stats.StatOf | src/app/api/stats/route.ts:24-37 | the entry names the type, counts the scores, and holds the mean and the passing percentage each within half a unit, halves up, with 0 for both when unpractised |
| Stats.StatsOf | src/app/api/stats/route.ts:17-39 | one entry per grammar type in the listed order, each with the caller's record count of that type, the average of those scores and their pass rate |
| Stats.StatInRange | src/app/api/stats/route.ts:25-31 | with scores in 0..100, every average and pass rate is in 0..100 |
| Stats.GrandTotal | src/app/api/stats/route.ts:42 | the total is at least every per-type count, and is 0 iff every count is 0 |
| Stats.GrandTotalCountsOwnRecords | src/app/api/stats/route.ts:42 | the overall total equals the number of the caller's records whose type is listed, each counted once |
| Stats.FilterWeakCounts | src/app/api/stats/route.ts:43-44 | a stat is kept, as often as it occurs, iff it has ≥ 3 practices and an average below 70 |
| Stats.FilterWeakAppend | src/app/api/stats/route.ts:43-44 | keeping the weak entries distributes over concatenation, so the kept entries stay in stats order |
| Stats.FilterWeakOne | src/app/api/stats/route.ts:44 | one entry is kept exactly when it is weak |
| Stats.WithAverageFilterWeak | src/app/api/stats/route.ts:43-44 | taking the entries of one average commutes with keeping the weak ones |
| Stats.SortByAverage | src/app/api/stats/route.ts:45 | the result is ascending by average, a permutation of the input, and keeps the input order among equal averages |
| Stats.WeakPoints | src/app/api/stats/route.ts:43-45 | exactly the weak entries, each as often as in the stats, ascending by average; the entries of any one average are the weak ones among that average's entries of the stats, in stats order |
| Stats.Get | src/app/api/stats/route.ts:5-51 | a missing bearer header is 401 `未登录`; a failed verification is 401 `认证失败`; otherwise 200 with the verified user's stats, total and weak points |
| StatsPage.BandOf | src/app/stats/page.tsx:48-60 | ≥ 80 is the good band, 60–79 the fair band, below 60 the poor band |
| StatsPage.ScoreColor | src/app/stats/page.tsx:48-52 | the text colour is the band's: success from 80, warning from 60, error below |
| StatsPage.BarColor | src/app/stats/page.tsx:56-60 | the bar colour is the band's: success from 80, warning from 60, error below |
| StatsPage.ColoursFollowBand | src/app/stats/page.tsx:48-60 | text and bar colour depend on the band alone; two scores share either colour iff they share the band |
| StatsPage.WeakPointNotSuccess | src/app/stats/page.tsx:48-52 | a weak point is never coloured as a success |
| StatsPage.BarPercent | src/app/stats/page.tsx:54 | the width is at least 4 and at least the score, and is one of the two |
| StatsPage.BarWidth | src/app/stats/page.tsx:54 | the CSS width ends in `%` |
| StatsPage.BarWidthShowsScore | src/app/stats/page.tsx:54 | for a score of at least 4 the width's number reads back as the score |
| StatsPage.PracticedTypes | src/app/stats/page.tsx:90 | at most the number of types; 0 iff no type was practised; all iff every type was |
| StatsPage.PracticedTypesAtMostTotal | src/app/stats/page.tsx:85-92 | the practised-type count never exceeds the overall total |
| StatsPage.CellOf | src/app/stats/page.tsx:136-142 | the score is shown iff the type was practised, with the colour of its band |
| StatsPage.CellText | src/app/stats/page.tsx:136-142 | the cell reads `未练习` iff the type is unpractised; a score ends in `分` |
| StatsPage.CellTextShowsScore | src/app/stats/page.tsx:138 | a non-negative score reads back from the digits before `分` |
| StatsPage.UnpractisedRow | src/app/stats/page.tsx:129-142 | a type without records shows `未练习` and a minimal red bar |
| AdminSentences.CeilDiv | src/app/admin/page.tsx:184 | the least number of pages of that size that hold every row |
| AdminSentences.Matching | src/app/api/admin/sentences/route.ts:13 | all rows without a filter; otherwise exactly the rows of that grammar type |
| AdminSentences.MatchingAppend | src/app/api/admin/sentences/route.ts:13 | filtering distributes over concatenation, so matches keep the table order and appear as often as in the table |
| AdminSentences.MatchingOne | src/app/api/admin/sentences/route.ts:13 | one row matches exactly when there is no filter or it has the filtered type |
| AdminSentences.Window | src/app/api/admin/sentences/route.ts:20-21 | at most `take` rows, the ones from position `skip` on, in order |
| AdminSentences.Get | src/app/api/admin/sentences/route.ts:5-27 | the guard's refusal as it is; page and size default to 1 and 20; the page is the window at (page−1)·size; total counts the same filter |
| AdminSentences.DefaultListing | src/app/api/admin/sentences/route.ts:10-11 | without paging parameters, the 20 newest matching sentences |
| AdminSentences.TotalIgnoresPaging | src/app/api/admin/sentences/route.ts:13-23 | the total does not depend on page or size |
| AdminSentences.PagesArePrefix | src/app/api/admin/sentences/route.ts:20-21 | consecutive pages are adjacent and disjoint: pages 1..n are the first n·size rows |
| AdminSentences.PagesCoverAll | src/app/api/admin/sentences/route.ts:20-21 | pages 1..ceil(total/size) hold every row once, in order |
| AdminSentences.ListedPageIsPage | src/app/api/admin/sentences/route.ts:16-22 | for an administrator asking for page 1 or later with a non-negative size, the request succeeds and the listed page is exactly what follows the pages before it |
| AdminSentences.Items | src/app/api/admin/sentences/route.ts:34 | an array body is used as it is, and a single object becomes a one-element list |
| AdminSentences.Created | src/app/api/admin/sentences/route.ts:36-42 | one row per item, in item order, with that item's type and text |
| AdminSentences.Post | src/app/api/admin/sentences/route.ts:29-45 | the guard's refusal as it is; otherwise 201 with one new row per item, and the table grows by exactly those rows |
| AdminSentences.SingleIsOneElementArray | src/app/api/admin/sentences/route.ts:34 | a single object is handled exactly like a one-element array |
| AdminSentences.CreatedIdsAreFresh | src/app/api/admin/sentences/route.ts:36-42 | new rows get distinct ids below the next id |
| AdminPage.TotalPages | src/app/admin/page.tsx:184 | the least page count that holds the total at 20 per page; 0 iff there is nothing |
| AdminPage.ShowsPager | src/app/admin/page.tsx:450 | the pager is shown iff there are more than 20 matching sentences |
| AdminPage.Prev | src/app/admin/page.tsx:453 | never below 1, and one less than a page above 1 |
| AdminPage.Next | src/app/admin/page.tsx:463 | never above the page count, and one more than a page below it |
| AdminPage.PagerKeepsRange | src/app/admin/page.tsx:450-466 | both buttons keep the page within 1..totalPages and stay put only at the ends |
| AdminPage.ChangeFilter | src/app/admin/page.tsx:243 | a new filter goes back to page 1 |
| AdminPage.QueryOf | src/app/admin/page.tsx:78-81 | the request always carries the page and the fixed size 20, and carries the filter exactly when one is chosen |
| AdminPage.FilterChangeShowsFirstPage | src/app/admin/page.tsx:243 | after a filter change the listing is the 20 newest matches with their full count |
| AdminPage.ReachablePagesAreNonEmpty | src/app/admin/page.tsx:450-466 | every page the pager reaches holds at least one sentence |
| AdminPage.CreateRequest | src/app/admin/page.tsx:126-132 | nothing is sent for blank text or no type; otherwise the non-empty trimmed text with the type |
| AdminPage.CreateStoresTrimmedText | src/app/admin/page.tsx:126-132 | a created sentence is stored as one new row holding the trimmed text |
| AdminPage.Toggle | src/app/admin/page.tsx:175-182 | the index's membership flips and every other index is untouched |
| AdminPage.ToggleTwice | src/app/admin/page.tsx:175-182 | toggling twice restores the selection |
| AdminPage.RangeSize | src/app/admin/page.tsx:153 | the initial selection of n sentences has n members |
| AdminPage.FindType | src/app/admin/page.tsx:142 | a type with that id is found iff one is listed, and it is the first listed one with that id |
| AdminPage.StartGenerate | src/app/admin/page.tsx:138-149 | nothing without a chosen type; otherwise busy and cleared, and the request carries the found type's name and level with the count |
| AdminPage.UnknownTypeLeavesPanelBusy | src/app/admin/page.tsx:139-143 | a chosen type missing from the list leaves the panel busy with no request sent |
| AdminPage.FinishGenerate | src/app/admin/page.tsx:150-155 | the panel is no longer busy; a reply with sentences replaces the list and selects all of it; otherwise nothing else changes |
| AdminPage.FreshReplyIsFullySelected | src/app/admin/page.tsx:151-162 | right after a reply every sentence is selected, and confirming sends all of them |
| AdminPage.Confirm | src/app/admin/page.tsx:158-173 | something is sent iff a type is chosen and the selection is non-empty; then the kept sentences are sent, tagged with the type, and the panel is reset |
| AdminPage.ConfirmSendsSelection | src/app/admin/page.tsx:158-162 | the items are the sentences at exactly the selected in-range indices, ascending |
| AdminPage.IndicesExact | src/app/admin/page.tsx:160-161 | the listed indices are the selected ones in range, ascending, and no selected index in range is missing |
| AdminPage.Kept | src/app/admin/page.tsx:160-161 | the kept sentences are the generated ones at the selected indices, one for each, in index order |
| AdminPage.KeptExtremes | src/app/admin/page.tsx:160-161 | selecting all keeps all, and selecting none keeps none |
| Users.Lookup | src/app/api/auth/register/route.ts:12 | a lookup by email (or, in the profile route, by id) is `None` iff no user has that key; otherwise it gives a user with it |
| Accounts.NicknameOf | src/app/api/auth/register/route.ts:19 | the nickname is kept iff it is a non-empty string, and is null otherwise |
| Accounts.Register | src/app/api/auth/register/route.ts:5-28 | an unreadable body crashes; missing credentials are 400; a taken email is 409 iff it is taken; success appends one user with the hashed password and returns the token and the public user; every failure leaves the table alone; truthy credentials with an untaken email always succeed |
| Accounts.Login | src/app/api/auth/login/route.ts:5-28 | missing credentials are 400; success iff the email exists and the password checks against its hash, with that user's token and public fields; every other refusal is the same 401 `邮箱或密码错误` |
| Accounts.RegisterKeepsValid | src/app/api/auth/register/route.ts:12-20 | registration keeps emails and ids unique |
| Accounts.RegisterThenLogin | src/app/api/auth/login/route.ts:12-27 | logging in after registering succeeds for the same user, with a token signed over the same claims at the login's issue time, and the two tokens are equal when both are issued in the same second |
| Accounts.RegisterTwiceConflicts | src/app/api/auth/register/route.ts:12-15 | a repeated registration is 409 and changes nothing |
| Accounts.LoginFailuresIndistinguishable | src/app/api/auth/login/route.ts:13-20 | an unknown email and a wrong password get the identical answer |
| UserProfile.GetUserId | src/app/api/user/profile/route.ts:5-13 | an id iff the header carries a bearer token that verifies, and then the id of that token |
| UserProfile.Get | src/app/api/user/profile/route.ts:15-31 | no id or id 0 is 401 `未登录`; an unknown id is 404 `用户不存在`; otherwise the user's public fields and creation time |
| UserProfile.Normalise | src/app/api/user/profile/route.ts:47 | null iff the nickname is blank; otherwise the trimmed nickname, never empty and never padded |
| UserProfile.NormaliseIdempotent | src/app/api/user/profile/route.ts:47 | storing a stored nickname again stores the same value |
| UserProfile.NormalisedWithinLimit | src/app/api/user/profile/route.ts:41-47 | an accepted nickname is stored with at most 20 characters |
| UserProfile.Patch | src/app/api/user/profile/route.ts:33-52 | no id is 401; an unreadable body crashes; a non-string or over-long nickname is 400 `昵称不能超过20个字符`; success iff accepted and the user exists, replacing only that user's nickname; every failure leaves the table alone |
| UserProfile.PatchChangesOnlyNickname | src/app/api/user/profile/route.ts:45-49 | no field other than a nickname changes, no row is added, and the table stays valid |
| UserProfile.PatchThenGet | src/app/api/user/profile/route.ts:21-49 | after a change, reading the profile shows the normalised nickname and otherwise the old fields |
| ProfilePage.DisplayName | src/app/profile/page.tsx:108 | the nickname if non-empty; otherwise the email up to its first `@`, which holds no `@` |
| ProfilePage.Shown | src/app/profile/page.tsx:93 | the stored nickname when it is non-empty, and empty text otherwise |
| ProfilePage.HasChanges | src/app/profile/page.tsx:93 | no change iff the input equals the stored nickname, an absent one counting as empty |
| ProfilePage.SaveDisabled | src/app/profile/page.tsx:170 | the button is enabled iff no save is running and the input differs from the shown nickname |
| ProfilePage.UpperAscii | src/app/profile/page.tsx:105 | ASCII lower-case letters become upper-case, and every other character is kept |
| ProfilePage.AvatarInitial | src/app/profile/page.tsx:105 | the upper-cased first character of the nickname, or of the email without one; absent iff that text is empty |
| ProfilePage.Merge | src/app/profile/page.tsx:66 | the reply's fields replace the shown ones, and the creation time is kept |
| ProfilePage.Save | src/app/profile/page.tsx:45-75 | an error reply shows its text and keeps the profile; a JSON reply merges and shows `保存成功`; no reply shows the network error |
| ProfilePage.PatchStatusMatchesBody | src/app/profile/page.tsx:61 | the route answers 200 iff its body is JSON, so the body kind decides as `res.ok` does |
| ProfilePage.ChangesAfterSave | src/app/profile/page.tsx:93 | after a save the page still reports changes iff the typed text had surrounding whitespace |
| HomePage.OfLevel | src/app/page.tsx:59-63 | every card of a group has that level |
| HomePage.OfLevelCounts | src/app/page.tsx:59-63 | a group holds each card of its level as often as the list does, and no other card |
| HomePage.OfLevelAppend | src/app/page.tsx:59-63 | grouping keeps the listed order, because it distributes over concatenation |
| HomePage.Sections | src/app/page.tsx:89 | three sections in the order BEGINNER, INTERMEDIATE, ADVANCED, each with its group |
| HomePage.GroupsDisjoint | src/app/page.tsx:59-63 | no card is in two groups |
| HomePage.GroupSizes | src/app/page.tsx:59-63 | the group sizes add up to the number of cards with one of the three levels |
| HomePage.CardLabel | src/app/page.tsx:116-118 | `暂无练习题` for no sentences; otherwise text ending in ` 道练习题` |
| HomePage.CardLabelShowsCount | src/app/page.tsx:116-118 | the label's number reads back as the sentence count |
| PracticeRecords.Copy | src/app/api/practice/records/route.ts:15-29 | the row carries the token's user id |
| PracticeRecords.CopyKeepsFields | src/app/api/practice/records/route.ts:16-28 | the ten body fields go in unchanged and unchecked |
| PracticeRecords.Post | src/app/api/practice/records/route.ts:5-35 | no bearer header is 401 `未登录`; an insert is attempted iff the token verifies and the body parses; every other failure, including a refused insert, is 401 `认证失败` |
| PracticeRecords.BodyUserIdIgnored | src/app/api/practice/records/route.ts:17 | a user id in the body changes nothing |
| PracticeRecords.FilterFor | src/app/api/practice/records/route.ts:47-52 | the filter always holds the user, and the type only when given |
| PracticeRecords.Select | src/app/api/practice/records/route.ts:54-56 | only matching rows of the table are selected |
| PracticeRecords.SelectAppend | src/app/api/practice/records/route.ts:54-56 | selecting distributes over concatenation, so matches keep the table order and appear as often as in the table |
| PracticeRecords.SelectOne | src/app/api/practice/records/route.ts:54-56 | one row is selected exactly when it matches the filter |
| PracticeRecords.SelectComplete | src/app/api/practice/records/route.ts:54-56 | every matching row is selected |
| PracticeRecords.SelectKeepsOrder | src/app/api/practice/records/route.ts:57 | selection keeps newest-first order |
| PracticeRecords.Get | src/app/api/practice/records/route.ts:37-65 | the 401 branches; otherwise at most 50 rows, a prefix of the matches, and all of them when there are at most 50 |
| PracticeRecords.ListingIsOwnAndNewestFirst | src/app/api/practice/records/route.ts:47-59 | every listed record is the caller's, of the requested type, and newest first |

## Left out

- The HTTP client to the language model is a parameter: a non-2xx answer or a network error is `None`. Debug logging is not modelled.
- bcrypt and jsonwebtoken are parameters. The signer takes the issue time that `jwt.sign` adds as `iat` (with `exp` seven days later). Token expiry is part of the verifier, and `check(p, hash(p))` is assumed only where a lemma says so.
- `JSON.parse` is a parameter. No JSON grammar is modelled, and no field of a parsed value is inspected, as in the routes.
- Database connection, schema defaults and seeding are not modelled. The default role of a new user is a parameter, and timestamps are inputs.
- The database's sorting is not computed. Tables arrive already in the order of each query's `orderBy`, including the grammar types' (level, id) order.
- `Promise.all` in the stats and sentence routes is treated as an order-preserving sequential map.
- Database failures other than those named are not modelled: the refused record insert and the missing user on update.
- Network failures of the admin page's requests are not modelled: a rejected `fetch` or an unreadable reply in `handleGenerate` leaves the panel busy, and one in `handleConfirmGenerated` leaves the selection in place, while `FinishGenerate` and `Confirm` model only replies that arrive.
- Presentation is not modelled: JSX, styling, navigation, `localStorage`, loading flags, confirmation dialogs, and the edit and delete buttons of the admin page.
- The grammar-type and sentence listing routes are thin queries and are not part of this model.
- Evaluate.BuildPrompt: `$` patterns in `replace` replacement strings are not interpreted, so inputs are taken to contain no `$` sequence that `replace` would expand.
- Generate.BuildPrompt: a `level` naming an inherited object property such as `constructor` would make `levelMap[level]` a function; only own keys are modelled.
- Generate.EffectiveCount: a `count` of `null` or a non-number is not modelled, because `count` is an optional integer here.
- AdminSentences.Get: query parameters are well-formed integers, with `NaN` not modelled. Any negative offset or size is treated as a query the database rejects, so the backwards reading a negative `take` gets is not modelled.
- AdminSentences.Post: items are well-typed, and a database refusal of an item, such as an unknown grammar type, is not modelled. The new rows are placed before the old ones in item order; the source leaves their relative creation order to concurrent inserts.
- UserProfile.Patch: the 20-character limit counts characters, while JavaScript counts UTF-16 code units, so a nickname with characters outside the Basic Multilingual Plane can pass here where the route refuses it.
- ProfilePage.UpperAscii: only ASCII letters are upper-cased, while `toUpperCase` also maps other letters (é to É, ß to "SS"); Unicode case tables are not modelled.
- ProfilePage.AvatarInitial: upper-casing covers ASCII letters only, and every other character is kept as it is.
- ProfilePage.Save: it branches on the kind of reply body instead of `res.ok`. `ProfilePage.PatchStatusMatchesBody` shows the two agree on every reply the profile route gives.
- Evaluate.Post: a field that is truthy but not a string is not modelled; the route writes its text form into the prompt, while here every field is a string or absent.
- Generate.Post: a `grammarType` or `level` that is truthy but not a string is not modelled; the route writes its text form into the prompt.
- Accounts.Register: an email, password or nickname that is truthy but not a string is not modelled; on it the route's database call throws and answers 500.
- Accounts.Login: an email or password that is truthy but not a string is not modelled; on it the route's database call throws and answers 500.
- Stats.RoundHalfUp: `Math.round` on doubles is modelled as exact rational rounding, with floating-point artefacts out of scope.
- PracticeRecords.Post: the body's scores are integers and its texts strings, so the unchecked reply of the language model that the practice page posts (a fractional, textual or missing score) is not representable; on such a body the database's schema decides, and a refusal is the `insert` parameter answering `None`, which gives 401 `认证失败`.
- PracticeRecords.Get: the `grammarTypeId` parameter is an integer or absent (absent or empty means no type filter), so the `NaN` or fraction that `Number(...)` gives for a malformed parameter is not representable; on it the database's answer, or its throw turned into 401 `认证失败`, is not modelled.
- Accounts.Register: two concurrent registrations racing past the email check are not modelled; each call is one atomic step on the table.

=== FILE: accounts.dfy ===
/** `POST /api/auth/register` and `POST /api/auth/login`: a transition and a
    query on the user table, with password hashing and token signing as
    parameters. */
module Accounts {
  import opened Wrappers
  import opened Http
  import opened Tokens
  import opened Users

  /** The fields read from a request body; `None` when absent. */
  datatype RegisterBody = RegisterBody(email: Option<string>, password: Option<string>,
                                       nickname: Option<string>)

  datatype LoginBody = LoginBody(email: Option<string>, password: Option<string>)

  /** A successful reply: a session token and the user it belongs to. */
  datatype Session = Session(token: string, user: PublicUser)

  const MissingCredentials := "邮箱和密码不能为空"
  const EmailTaken := "该邮箱已被注册"
  const BadCredentials := "邮箱或密码错误"

  /** The claims signed for a user. */
  function Claims(u: User): JwtPayload {
    JwtPayload(u.id, u.email, u.role)
  }

  /** `nickname || null`. */
  function NicknameOf(n: Option<string>): (r: Option<string>)
    ensures r.Some? <==> Truthy(n)
    ensures r.Some? ==> r == n
  {
    if Truthy(n) then n else None
  }

  /** Registration. An unreadable body is an unhandled error; a missing email
      or password is 400; a taken email is 409; otherwise one user is added
      with the hashed password and the table's default role, and a token for
      that user is returned. */
  function Register(s: Store, body: Option<RegisterBody>, hash: string -> string, sign: Signer,
                    defaultRole: string, now: int, iat: int): (r: (Store, Response<Session>))
    ensures body.None? ==> r == (s, Unhandled())
    ensures body.Some? && !(Truthy(body.value.email) && Truthy(body.value.password)) ==>
      r == (s, Fail(400, MissingCredentials))
    ensures body.Some? && Truthy(body.value.email) && Truthy(body.value.password) ==>
      (Lookup(s.users, ByEmail(body.value.email.value)).Some? <==> r == (s, Fail(409, EmailTaken)))
    ensures r.1.status == 200 ==>
      var b := body.value;
      var u := User(s.nextId, b.email.value, hash(b.password.value), NicknameOf(b.nickname), defaultRole, now);
      && Lookup(s.users, ByEmail(b.email.value)).None?
      && r.0 == Store(s.users + [u], s.nextId + 1)
      && r.1 == Ok(Session(sign(Claims(u), iat), Public(u)))
    ensures (&& body.Some? && Truthy(body.value.email) && Truthy(body.value.password)
             && Lookup(s.users, ByEmail(body.value.email.value)).None?) ==> r.1.status == 200
    ensures r.1.status == 200 || r.0 == s
  {
    match body
    case None => (s, Unhandled())
    case Some(b) =>
      if !Truthy(b.email) || !Truthy(b.password) then (s, Fail(400, MissingCredentials))
      else if Lookup(s.users, ByEmail(b.email.value)).Some? then (s, Fail(409, EmailTaken))
      else
        var u := User(s.nextId, b.email.value, hash(b.password.value), NicknameOf(b.nickname), defaultRole, now);
        (Store(s.users + [u], s.nextId + 1), Ok(Session(sign(Claims(u), iat), Public(u))))
  }

  /** Login: a query that returns only a response, so it cannot change the
      table. Unknown email and wrong password are refused with one and the
      same response. */
  function Login(s: Store, body: Option<LoginBody>, check: (string, string) -> bool, sign: Signer,
                 iat: int): (r: Response<Session>)
    ensures body.None? ==> r == Unhandled()
    ensures body.Some? && !(Truthy(body.value.email) && Truthy(body.value.password)) ==>
      r == Fail(400, MissingCredentials)
    ensures r.status == 200 <==>
      && body.Some? && Truthy(body.value.email) && Truthy(body.value.password)
      && var i := Lookup(s.users, ByEmail(body.value.email.value));
         i.Some? && check(body.value.password.value, s.users[i.value].passwordHash)
    ensures r.status == 200 ==>
      var u := s.users[Lookup(s.users, ByEmail(body.value.email.value)).value];
      r == Ok(Session(sign(Claims(u), iat), Public(u)))
    ensures body.Some? && Truthy(body.value.email) && Truthy(body.value.password) && r.status != 200 ==>
      r == Fail(401, BadCredentials)
  {
    match body
    case None => Unhandled()
    case Some(b) =>
      if !Truthy(b.email) || !Truthy(b.password) then Fail(400, MissingCredentials)
      else
        match Lookup(s.users, ByEmail(b.email.value))
        case None => Fail(401, BadCredentials)
        case Some(i) =>
          var u := s.users[i];
          if !check(b.password.value, u.passwordHash) then Fail(401, BadCredentials)
          else Ok(Session(sign(Claims(u), iat), Public(u)))
  }

  /** Registration keeps the table's constraints. */
  lemma RegisterKeepsValid(s: Store, body: Option<RegisterBody>, hash: string -> string, sign: Signer,
                           defaultRole: string, now: int, iat: int)
    requires Valid(s) && s.nextId >= 1
    ensures Valid(Register(s, body, hash, sign, defaultRole, now, iat).0)
  {
  }

  /** Whoever has just registered can log in with the same email and
      password, provided the password checker accepts a password against its
      own hash. The login answers for the same user, and both tokens are signed
      over the same claims; they are the same token when both are issued in the
      same second. */
  lemma RegisterThenLogin(s: Store, email: string, password: string, nickname: Option<string>,
                          hash: string -> string, check: (string, string) -> bool, sign: Signer,
                          defaultRole: string, now: int, iat1: int, iat2: int)
    requires check(password, hash(password))
    requires Register(s, Some(RegisterBody(Some(email), Some(password), nickname)), hash, sign, defaultRole, now, iat1).1.status == 200
    ensures var (s', reg) := Register(s, Some(RegisterBody(Some(email), Some(password), nickname)), hash, sign, defaultRole, now, iat1);
      var l := Login(s', Some(LoginBody(Some(email), Some(password))), check, sign, iat2);
      && l.status == 200
      && (exists u: User :: && reg == Ok(Session(sign(Claims(u), iat1), Public(u)))
                            && l == Ok(Session(sign(Claims(u), iat2), Public(u))))
      && (iat1 == iat2 ==> l == reg)
  {
    var (s', reg) := Register(s, Some(RegisterBody(Some(email), Some(password), nickname)), hash, sign, defaultRole, now, iat1);
    assert Lookup(s'.users, ByEmail(email)) == Some(|s.users|);
    var u := s'.users[|s.users|];
    assert Login(s', Some(LoginBody(Some(email), Some(password))), check, sign, iat2) == Ok(Session(sign(Claims(u), iat2), Public(u)));
  }

  /** A second registration with the same body is refused with 409 and
      leaves the table as the first one left it. */
  lemma RegisterTwiceConflicts(s: Store, body: RegisterBody, hash: string -> string, sign: Signer,
                               defaultRole: string, now1: int, now2: int, iat1: int, iat2: int)
    requires Register(s, Some(body), hash, sign, defaultRole, now1, iat1).1.status == 200
    ensures var s' := Register(s, Some(body), hash, sign, defaultRole, now1, iat1).0;
      Register(s', Some(body), hash, sign, defaultRole, now2, iat2) == (s', Fail(409, EmailTaken))
  {
    var s' := Register(s, Some(body), hash, sign, defaultRole, now1, iat1).0;
    assert s'.users[|s.users|].email == body.email.value;
  }

  /** The two ways a login can fail give the caller identical answers. */
  lemma LoginFailuresIndistinguishable(s: Store, email1: string, email2: string, password: string,
                                       check: (string, string) -> bool, sign: Signer, iat: int)
    requires email1 != "" && email2 != "" && password != ""
    requires Lookup(s.users, ByEmail(email1)).None?
    requires Lookup(s.users, ByEmail(email2)).Some?
    requires !check(password, s.users[Lookup(s.users, ByEmail(email2)).value].passwordHash)
    ensures Login(s, Some(LoginBody(Some(email1), Some(password))), check, sign, iat)
         == Login(s, Some(LoginBody(Some(email2), Some(password))), check, sign, iat)
  {
  }
}

=== FILE: admin_guard.dfy ===
/** `requireAdmin` (lib/admin.ts): the guard in front of every admin route. */
module AdminGuard {
  import opened Wrappers
  import opened Http
  import opened Tokens

  const AdminRole := "ADMIN"
  const NotAdmin := "无管理员权限"

  /** The verified payload when the caller is an administrator, otherwise the
      refusal the route returns as it is. */
  function RequireAdmin(header: Option<string>, verify: Verifier): (r: Result<JwtPayload, Denial>)
    ensures BearerToken(header).None? ==> r == Failure(Denial(401, NotLoggedIn))
    ensures var t := BearerToken(header);
      t.Some? && verify(t.value).None? ==> r == Failure(Denial(401, AuthFailed))
    ensures var t := BearerToken(header);
      (t.Some? && verify(t.value).Some? && verify(t.value).value.role != AdminRole) ==>
        r == Failure(Denial(403, NotAdmin))
    ensures var t := BearerToken(header);
      r.Success? <==> (t.Some? && verify(t.value).Some? && verify(t.value).value.role == AdminRole)
    ensures r.Success? ==> r.value == verify(BearerToken(header).value).value
  {
    match BearerToken(header)
    case None => Failure(Denial(401, NotLoggedIn))
    case Some(token) =>
      match verify(token)
      case None => Failure(Denial(401, AuthFailed))
      case Some(payload) =>
        if payload.role != AdminRole then Failure(Denial(403, NotAdmin))
        else Success(payload)
  }

  /** Without a bearer header the token verifier is never consulted: the
      decision is the same whatever it would have answered. */
  lemma NoHeaderNoVerification(header: Option<string>, v1: Verifier, v2: Verifier)
    requires BearerToken(header).None?
    ensures RequireAdmin(header, v1) == RequireAdmin(header, v2) == Failure(Denial(401, NotLoggedIn))
  {
  }
}

=== FILE: admin_page.dfy ===
/** The client logic of the sentence administration page: paging, the
    create form, and the generate / review / confirm flow. */
module AdminPage {
  import opened Wrappers
  import opened Http
  import opened Text
  import opened Tokens
  import opened Grammar
  import opened AdminGuard
  import opened AdminSentences

  // ---------------------------------------------------------------- paging

  /** The page size the page always asks for. */
  const PageSize := 20

  /** `totalPages = Math.ceil(total / pageSize)`. */
  function TotalPages(total: nat): (n: nat)
    ensures n * PageSize >= total
    ensures n > 0 ==> (n - 1) * PageSize < total
    ensures n == 0 <==> total == 0
  {
    CeilDiv(total, PageSize)
  }

  /** The pager is shown only when there is more than one page. */
  function ShowsPager(total: nat): (r: bool)
    ensures r <==> total > PageSize
  {
    TotalPages(total) > 1
  }

  /** The previous-page button: `Math.max(1, p - 1)`. */
  function Prev(p: int): (r: int)
    ensures r >= 1
    ensures p >= 1 ==> r <= p
    ensures p > 1 ==> r == p - 1
  {
    if p - 1 > 1 then p - 1 else 1
  }

  /** The next-page button: `Math.min(totalPages, p + 1)`. */
  function Next(p: int, totalPages: int): (r: int)
    ensures r <= totalPages
    ensures p < totalPages ==> r == p + 1
  {
    if p + 1 < totalPages then p + 1 else totalPages
  }

  /** Both buttons keep the page within 1..totalPages. */
  lemma PagerKeepsRange(p: int, totalPages: int)
    requires 1 <= p <= totalPages
    ensures 1 <= Prev(p) <= totalPages
    ensures 1 <= Next(p, totalPages) <= totalPages
    ensures Prev(p) == p <==> p == 1
    ensures Next(p, totalPages) == p <==> p == totalPages
  {
  }

  /** What the listing shows: the page number and the grammar-type filter
      (`None` for "全部语法类型"). */
  datatype ListView = ListView(page: int, filter: Option<int>)

  /** Choosing a filter goes back to the first page. */
  function ChangeFilter(v: ListView, filter: Option<int>): (r: ListView)
    ensures r.filter == filter && r.page == 1
  {
    ListView(1, filter)
  }

  /** The query `fetchSentences` sends for a view. */
  function QueryOf(v: ListView): (q: Query)
    ensures q.grammarTypeId == v.filter
    ensures q.page == Some(v.page) && q.pageSize == Some(PageSize)
  {
    Query(v.filter, Some(v.page), Some(PageSize))
  }

  /** After a filter change an administrator sees the newest matching
      sentences, and `total` counts every match. */
  lemma FilterChangeShowsFirstPage(v: ListView, filter: Option<int>, header: Option<string>,
                                   verify: Verifier, rows: seq<Sentence>)
    requires RequireAdmin(header, verify).Success?
    ensures var m := Matching(rows, filter);
      Get(header, verify, QueryOf(ChangeFilter(v, filter)), rows)
        == Ok(Listing(m[..Min(PageSize, |m|)], |m|, 1, PageSize))
  {
    var m := Matching(rows, filter);
    assert Window(m, 0, PageSize) == m[..Min(PageSize, |m|)];
  }

  /** Every page the pager can reach holds at least one sentence. */
  lemma ReachablePagesAreNonEmpty(p: int, header: Option<string>, verify: Verifier,
                                  filter: Option<int>, rows: seq<Sentence>)
    requires RequireAdmin(header, verify).Success?
    requires 1 <= p <= TotalPages(|Matching(rows, filter)|)
    ensures var r := Get(header, verify, QueryOf(ListView(p, filter)), rows);
      r.status == 200 && |r.body.value.sentences| > 0
  {
    var total := |Matching(rows, filter)|;
    var n := TotalPages(total);
    assert (p - 1) * PageSize <= (n - 1) * PageSize;
  }

  // ----------------------------------------------------------- create form

  /** `handleCreate`: nothing is sent without text or a grammar type;
      otherwise the trimmed text is sent. */
  function CreateRequest(text: string, grammarTypeId: Option<int>): (r: Option<NewSentence>)
    ensures r.None? <==> AllSpace(text) || grammarTypeId.None?
    ensures r.Some? ==> r.value.grammarTypeId == grammarTypeId.value && r.value.chinese == Trim(text)
    ensures r.Some? ==> |r.value.chinese| > 0 && IsTrimmed(r.value.chinese)
  {
    if Trim(text) == "" || grammarTypeId.None? then None
    else Some(NewSentence(grammarTypeId.value, Trim(text)))
  }

  /** What the form sends is what the server stores: one new row holding the
      trimmed text. */
  lemma CreateStoresTrimmedText(text: string, grammarTypeId: Option<int>, header: Option<string>,
                                verify: Verifier, t: Table)
    requires RequireAdmin(header, verify).Success?
    requires CreateRequest(text, grammarTypeId).Some?
    ensures var t' := Post(header, verify, Some(One(CreateRequest(text, grammarTypeId).value)), t).0;
      |t'.rows| == |t.rows| + 1 && t'.rows[0].chinese == Trim(text)
      && t'.rows[0].grammarTypeId == grammarTypeId.value && t'.rows[1..] == t.rows
  {
    var t' := Post(header, verify, Some(One(CreateRequest(text, grammarTypeId).value)), t).0;
    assert t'.rows == Created([CreateRequest(text, grammarTypeId).value], t.nextId) + t.rows;
  }

  // ------------------------------------------------------------- selection

  /** `toggleGenerated`. */
  function Toggle(sel: set<int>, i: int): (r: set<int>)
    ensures i in r <==> i !in sel
    ensures forall j :: j != i ==> (j in r <==> j in sel)
  {
    if i in sel then sel - {i} else sel + {i}
  }

  lemma ToggleTwice(sel: set<int>, i: int)
    ensures Toggle(Toggle(sel, i), i) == sel
  {
  }

  /** The indices 0..n-1. */
  function Range(n: nat): (r: set<int>)
    ensures forall i :: i in r <==> 0 <= i < n
  {
    if n == 0 then {} else Range(n - 1) + {n - 1}
  }

  lemma {:induction false} RangeSize(n: nat)
    ensures |Range(n)| == n
  {
    if n > 0 {
      RangeSize(n - 1);
    }
  }

  /** The generated sentences at the selected indices, in their own order. */
  function Kept(xs: seq<string>, sel: set<int>): (r: seq<string>)
    ensures var idx := IndicesFrom(|xs|, sel, 0);
      && |r| == |idx|
      && forall k :: 0 <= k < |idx| ==> 0 <= idx[k] < |xs| && r[k] == xs[idx[k]]
  {
    KeptAtIndices(xs, sel, 0);
    KeptFrom(xs, sel, 0)
  }

  function KeptFrom(xs: seq<string>, sel: set<int>, base: int): (r: seq<string>)
    ensures |r| <= |xs|
  {
    if |xs| == 0 then []
    else (if base in sel then [xs[0]] else []) + KeptFrom(xs[1..], sel, base + 1)
  }

  /** The selected indices below `base + n`, from `base` on, ascending. */
  function IndicesFrom(n: nat, sel: set<int>, base: int): seq<int> {
    if n == 0 then []
    else (if base in sel then [base] else []) + IndicesFrom(n - 1, sel, base + 1)
  }

  /** `IndicesFrom` lists exactly the selected indices of its range, ascending. */
  lemma {:induction false} IndicesExact(n: nat, sel: set<int>, base: int)
    ensures var idx := IndicesFrom(n, sel, base);
      && (forall k :: 0 <= k < |idx| ==> base <= idx[k] < base + n && idx[k] in sel)
      && (forall k, l :: 0 <= k < l < |idx| ==> idx[k] < idx[l])
      && (forall i :: base <= i < base + n && i in sel ==> i in idx)
  {
    if n > 0 {
      IndicesExact(n - 1, sel, base + 1);
    }
  }

  /** The kept sentences are the generated sentences at those indices. */
  lemma {:induction false} KeptAtIndices(xs: seq<string>, sel: set<int>, base: int)
    ensures var idx := IndicesFrom(|xs|, sel, base);
      && |KeptFrom(xs, sel, base)| == |idx|
      && forall k :: 0 <= k < |idx| ==> base <= idx[k] < base + |xs| && KeptFrom(xs, sel, base)[k] == xs[idx[k] - base]
  {
    if |xs| > 0 {
      KeptAtIndices(xs[1..], sel, base + 1);
      IndicesExact(|xs|, sel, base);
    }
  }

  /** Keeping every index keeps every sentence; keeping none keeps none. */
  lemma {:induction false} KeptExtremes(xs: seq<string>, sel: set<int>, base: int)
    ensures (forall i :: base <= i < base + |xs| ==> i in sel) ==> KeptFrom(xs, sel, base) == xs
    ensures (forall i :: base <= i < base + |xs| ==> i !in sel) ==> KeptFrom(xs, sel, base) == []
  {
    if |xs| > 0 {
      KeptExtremes(xs[1..], sel, base + 1);
      assert xs == [xs[0]] + xs[1..];
    }
  }

  // -------------------------------------------------- generate and confirm

  /** The generate panel: whether a request is in flight, the sentences of
      the last reply, and which of them are selected. */
  datatype Panel = Panel(generating: bool, generated: seq<string>, selected: set<int>)

  /** The body `handleGenerate` posts. */
  datatype GenerateBody = GenerateBody(grammarType: string, level: string, count: int)

  function FindType(types: seq<GrammarType>, id: int): (r: Option<GrammarType>)
    ensures r.Some? <==> exists k :: 0 <= k < |types| && types[k].id == id
    ensures r.Some? ==> r.value in types && r.value.id == id
    ensures r.Some? ==> exists j :: 0 <= j < |types| && types[j] == r.value
                                    && forall k :: 0 <= k < j ==> types[k].id != id
  {
    if |types| == 0 then None
    else if types[0].id == id then Some(types[0])
    else
      var r := FindType(types[1..], id);
      assert forall k :: 1 <= k < |types| ==> types[k] == types[1..][k - 1];
      r
  }

  /** The first half of `handleGenerate`, up to the request: without a chosen
      type nothing happens; otherwise the panel is cleared and marked busy, and
      the request goes out only if the chosen type is in the loaded list. */
  function StartGenerate(p: Panel, chosen: Option<int>, types: seq<GrammarType>, count: int)
    : (r: (Panel, Option<GenerateBody>))
    ensures chosen.None? ==> r == (p, None)
    ensures chosen.Some? ==> r.0 == Panel(true, [], p.selected)
    ensures r.1.Some? <==> chosen.Some? && FindType(types, chosen.value).Some?
    ensures r.1.Some? ==>
      var gt := FindType(types, chosen.value).value;
      r.1.value == GenerateBody(gt.name, gt.level, count)
  {
    match chosen
    case None => (p, None)
    case Some(id) =>
      var busy := Panel(true, [], p.selected);
      match FindType(types, id)
      case None => (busy, None)
      case Some(gt) => (busy, Some(GenerateBody(gt.name, gt.level, count)))
  }

  /** A chosen type missing from the loaded list leaves the panel busy with
      no request in flight to clear it. */
  lemma UnknownTypeLeavesPanelBusy(p: Panel, id: int, types: seq<GrammarType>, count: int)
    requires forall k :: 0 <= k < |types| ==> types[k].id != id
    ensures StartGenerate(p, Some(id), types, count) == (Panel(true, [], p.selected), None)
  {
  }

  /** The second half: a reply carrying `sentences` replaces the list and
      selects all of it; any reply ends the busy state. */
  function FinishGenerate(p: Panel, sentences: Option<seq<string>>): (r: Panel)
    ensures !r.generating
    ensures sentences.Some? ==> r.generated == sentences.value && r.selected == Range(|sentences.value|)
    ensures sentences.None? ==> r == p.(generating := false)
  {
    match sentences
    case None => p.(generating := false)
    case Some(xs) => Panel(false, xs, Range(|xs|))
  }

  /** Straight after a reply every generated sentence is selected, so
      confirming at once sends all of them. */
  lemma FreshReplyIsFullySelected(p: Panel, xs: seq<string>)
    ensures var q := FinishGenerate(p, Some(xs));
      |q.selected| == |xs| && Kept(q.generated, q.selected) == xs
  {
    RangeSize(|xs|);
    KeptExtremes(xs, Range(|xs|), 0);
  }

  /** `handleConfirmGenerated`: nothing is sent without a chosen type or with
      an empty selection; otherwise the selected sentences, each tagged with
      the chosen type, and the panel is reset. */
  function Confirm(p: Panel, chosen: Option<int>): (r: (Panel, Option<seq<NewSentence>>))
    ensures chosen.None? || |p.selected| == 0 ==> r == (p, None)
    ensures r.1.Some? <==> chosen.Some? && |p.selected| > 0
    ensures r.1.Some? ==> r.0 == Panel(p.generating, [], {})
    ensures r.1.Some? ==>
      && |r.1.value| == |Kept(p.generated, p.selected)|
      && forall k :: 0 <= k < |r.1.value| ==>
           r.1.value[k] == NewSentence(chosen.value, Kept(p.generated, p.selected)[k])
  {
    if chosen.None? || |p.selected| == 0 then (p, None)
    else
      var kept := Kept(p.generated, p.selected);
      (Panel(p.generating, [], {}), Some(seq(|kept|, k requires 0 <= k < |kept| => NewSentence(chosen.value, kept[k]))))
  }

  /** The confirmed items are the generated sentences at the selected
      indices, ascending, and every selected index in range contributes. */
  lemma ConfirmSendsSelection(p: Panel, chosen: Option<int>)
    requires Confirm(p, chosen).1.Some?
    ensures var items := Confirm(p, chosen).1.value;
      var idx := IndicesFrom(|p.generated|, p.selected, 0);
      && |items| == |idx|
      && (forall k :: 0 <= k < |idx| ==>
            idx[k] in p.selected && 0 <= idx[k] < |p.generated|
            && items[k] == NewSentence(chosen.value, p.generated[idx[k]]))
      && (forall k, l :: 0 <= k < l < |idx| ==> idx[k] < idx[l])
      && (forall i :: 0 <= i < |p.generated| && i in p.selected ==> i in idx)
  {
    KeptAtIndices(p.generated, p.selected, 0);
    IndicesExact(|p.generated|, p.selected, 0);
  }
}

=== FILE: admin_sentences.dfy ===
/** `GET` and `POST /api/admin/sentences`: the paged sentence listing and the
    batch creation of practice sentences. */
module AdminSentences {
  import opened Wrappers
  import opened Http
  import opened Tokens
  import opened AdminGuard

  /** A row of the sentence table. */
  datatype Sentence = Sentence(id: int, grammarTypeId: int, chinese: string)

  /** The query string: each parameter is `None` when absent or empty. */
  datatype Query = Query(grammarTypeId: Option<int>, page: Option<int>, pageSize: Option<int>)

  datatype Listing = Listing(sentences: seq<Sentence>, total: nat, page: int, pageSize: int)

  const DefaultPage := 1
  const DefaultPageSize := 20

  function Min(a: int, b: int): int {
    if a < b then a else b
  }

  /** `Math.ceil(a / b)`. */
  function CeilDiv(a: nat, b: nat): (r: nat)
    requires b > 0
    ensures r * b >= a
    ensures r > 0 ==> (r - 1) * b < a
  {
    (a + b - 1) / b
  }

  /** The `where` clause: every row, or the rows of one grammar type. */
  function Matching(rows: seq<Sentence>, grammarTypeId: Option<int>): (r: seq<Sentence>)
    ensures grammarTypeId.None? ==> r == rows
    ensures |r| <= |rows|
    ensures forall s :: s in r <==> s in rows && (grammarTypeId.None? || s.grammarTypeId == grammarTypeId.value)
  {
    if |rows| == 0 then []
    else
      var rest := Matching(rows[1..], grammarTypeId);
      assert rows == [rows[0]] + rows[1..];
      if grammarTypeId.None? || rows[0].grammarTypeId == grammarTypeId.value then [rows[0]] + rest else rest
  }

  /** Filtering distributes over concatenation: the matching rows keep their
      order, and each row appears as often as in the table. */
  lemma {:induction false} MatchingAppend(xs: seq<Sentence>, ys: seq<Sentence>, grammarTypeId: Option<int>)
    ensures Matching(xs + ys, grammarTypeId) == Matching(xs, grammarTypeId) + Matching(ys, grammarTypeId)
  {
    if |xs| == 0 {
      assert xs + ys == ys;
    } else {
      assert (xs + ys)[0] == xs[0];
      assert (xs + ys)[1..] == xs[1..] + ys;
      MatchingAppend(xs[1..], ys, grammarTypeId);
    }
  }

  /** One row matches exactly when there is no filter or it has the type. */
  lemma MatchingOne(row: Sentence, grammarTypeId: Option<int>)
    ensures Matching([row], grammarTypeId)
            == if grammarTypeId.None? || row.grammarTypeId == grammarTypeId.value then [row] else []
  {
    assert [row][1..] == [];
  }

  /** `skip` / `take` on an ordered result: the rows from position `skip`,
      at most `take` of them. */
  function Window(xs: seq<Sentence>, skip: nat, take: nat): (r: seq<Sentence>)
    ensures |r| <= take
    ensures |r| == if skip >= |xs| then 0 else Min(take, |xs| - skip)
    ensures forall k :: 0 <= k < |r| ==> r[k] == xs[skip + k]
  {
    if skip >= |xs| then [] else xs[skip..Min(skip + take, |xs|)]
  }

  /** The listing route. Absent paging parameters default to page 1 of 20;
      a negative offset or size is a query the database rejects. */
  function Get(header: Option<string>, verify: Verifier, q: Query, rows: seq<Sentence>): (r: Response<Listing>)
    ensures RequireAdmin(header, verify).Failure? ==> r == Deny(RequireAdmin(header, verify).error)
    ensures RequireAdmin(header, verify).Success? ==>
      var page := q.page.GetOr(DefaultPage);
      var size := q.pageSize.GetOr(DefaultPageSize);
      var skip := (page - 1) * size;
      && (skip < 0 || size < 0 ==> r == Unhandled())
      && (skip >= 0 && size >= 0 ==>
            r == Ok(Listing(Window(Matching(rows, q.grammarTypeId), skip, size),
                            |Matching(rows, q.grammarTypeId)|, page, size)))
  {
    match RequireAdmin(header, verify)
    case Failure(d) => Deny(d)
    case Success(_) =>
      var page := q.page.GetOr(DefaultPage);
      var size := q.pageSize.GetOr(DefaultPageSize);
      var skip := (page - 1) * size;
      if skip < 0 || size < 0 then Unhandled()
      else
        var matching := Matching(rows, q.grammarTypeId);
        Ok(Listing(Window(matching, skip, size), |matching|, page, size))
  }

  /** Without paging parameters an administrator gets the 20 newest matching
      sentences. */
  lemma DefaultListing(header: Option<string>, verify: Verifier, grammarTypeId: Option<int>,
                       rows: seq<Sentence>)
    requires RequireAdmin(header, verify).Success?
    ensures var m := Matching(rows, grammarTypeId);
      Get(header, verify, Query(grammarTypeId, None, None), rows)
        == Ok(Listing(m[..Min(20, |m|)], |m|, 1, 20))
  {
    var m := Matching(rows, grammarTypeId);
    assert Window(m, 0, 20) == m[..Min(20, |m|)];
  }

  /** `total` depends only on the filter, never on the page asked for. */
  lemma TotalIgnoresPaging(header: Option<string>, verify: Verifier, q1: Query, q2: Query,
                           rows: seq<Sentence>)
    requires q1.grammarTypeId == q2.grammarTypeId
    requires Get(header, verify, q1, rows).status == 200
    requires Get(header, verify, q2, rows).status == 200
    ensures Get(header, verify, q1, rows).body.value.total == Get(header, verify, q2, rows).body.value.total
  {
  }

  /** Pages 1..n of size `size`, one after the other. */
  function Pages(xs: seq<Sentence>, size: nat, n: nat): seq<Sentence> {
    if n == 0 then [] else Pages(xs, size, n - 1) + Window(xs, (n - 1) * size, size)
  }

  /** Consecutive pages are adjacent and do not overlap: the first n pages
      together are exactly the first n·size rows. */
  lemma {:induction false} PagesArePrefix(xs: seq<Sentence>, size: nat, n: nat)
    requires size > 0
    ensures Pages(xs, size, n) == xs[..Min(n * size, |xs|)]
  {
    if n > 0 {
      PagesArePrefix(xs, size, n - 1);
      assert n * size == (n - 1) * size + size;
      var lo := Min((n - 1) * size, |xs|);
      var hi := Min(n * size, |xs|);
      assert xs[..hi] == xs[..lo] + xs[lo..hi];
    }
  }

  /** Pages 1..ceil(total / size) hold every matching row, once each, in order. */
  lemma PagesCoverAll(xs: seq<Sentence>, size: nat)
    requires size > 0
    ensures Pages(xs, size, CeilDiv(|xs|, size)) == xs
  {
    PagesArePrefix(xs, size, CeilDiv(|xs|, size));
    assert xs[..|xs|] == xs;
  }

  /** Page `p` of a successful listing is page `p` of `Pages`. */
  lemma ListedPageIsPage(header: Option<string>, verify: Verifier, q: Query, rows: seq<Sentence>)
    requires RequireAdmin(header, verify).Success?
    requires q.page.GetOr(DefaultPage) >= 1 && q.pageSize.GetOr(DefaultPageSize) >= 0
    ensures Get(header, verify, q, rows).status == 200
    ensures var page: nat := q.page.GetOr(DefaultPage);
      var size: nat := q.pageSize.GetOr(DefaultPageSize);
      var m := Matching(rows, q.grammarTypeId);
      Get(header, verify, q, rows).body.Json? &&
      Pages(m, size, page) == Pages(m, size, page - 1) + Get(header, verify, q, rows).body.value.sentences
  {
    var page := q.page.GetOr(DefaultPage);
    var size := q.pageSize.GetOr(DefaultPageSize);
    var skip: nat := (page - 1) * size;
    ListedWindow(header, verify, q, rows, skip);
    PageStep(Matching(rows, q.grammarTypeId), size, page, skip);
  }

  /** A successful listing is the window at `(page - 1) * pageSize`. */
  lemma ListedWindow(header: Option<string>, verify: Verifier, q: Query, rows: seq<Sentence>, skip: nat)
    requires RequireAdmin(header, verify).Success?
    requires q.page.GetOr(DefaultPage) >= 1 && q.pageSize.GetOr(DefaultPageSize) >= 0
    requires skip == (q.page.GetOr(DefaultPage) - 1) * q.pageSize.GetOr(DefaultPageSize)
    ensures Get(header, verify, q, rows).body.Json?
    ensures Get(header, verify, q, rows).body.value.sentences
            == Window(Matching(rows, q.grammarTypeId), skip, q.pageSize.GetOr(DefaultPageSize))
  {
  }

  lemma PageStep(xs: seq<Sentence>, size: nat, n: nat, skip: nat)
    requires n >= 1 && skip == (n - 1) * size
    ensures Pages(xs, size, n) == Pages(xs, size, n - 1) + Window(xs, skip, size)
  {
  }

  // ------------------------------------------------------------------ POST

  /** A sentence to create. */
  datatype NewSentence = NewSentence(grammarTypeId: int, chinese: string)

  /** The request body: an array of sentences or a single one. */
  datatype Batch = Many(items: seq<NewSentence>) | One(item: NewSentence)

  /** `Array.isArray(body) ? body : [body]`. */
  function Items(b: Batch): (r: seq<NewSentence>)
    ensures b.One? ==> r == [b.item]
    ensures b.Many? ==> r == b.items
  {
    match b
    case Many(items) => items
    case One(item) => [item]
  }

  /** The sentence table: rows newest first, and the next id to assign. */
  datatype Table = Table(rows: seq<Sentence>, nextId: int)

  /** The rows created for `items`, with consecutive ids from `nextId`. */
  function Created(items: seq<NewSentence>, nextId: int): (r: seq<Sentence>)
    ensures |r| == |items|
    ensures forall k :: 0 <= k < |r| ==>
      r[k] == Sentence(nextId + k, items[k].grammarTypeId, items[k].chinese)
  {
    if |items| == 0 then []
    else [Sentence(nextId, items[0].grammarTypeId, items[0].chinese)] + Created(items[1..], nextId + 1)
  }

  /** The creation route: one sentence per item, returned in item order with
      status 201; an unreadable body is an unhandled error. */
  function Post(header: Option<string>, verify: Verifier, body: Option<Batch>, t: Table)
    : (r: (Table, Response<seq<Sentence>>))
    ensures RequireAdmin(header, verify).Failure? ==>
      r == (t, Deny(RequireAdmin(header, verify).error))
    ensures RequireAdmin(header, verify).Success? && body.None? ==> r == (t, Unhandled())
    ensures RequireAdmin(header, verify).Success? && body.Some? ==>
      r.1.status == 201 && r.1.body.Json? &&
      var made := r.1.body.value;
      && |made| == |Items(body.value)|
      && (forall k :: 0 <= k < |made| ==>
            made[k].grammarTypeId == Items(body.value)[k].grammarTypeId
            && made[k].chinese == Items(body.value)[k].chinese)
      && r.0 == Table(made + t.rows, t.nextId + |made|)
  {
    match RequireAdmin(header, verify)
    case Failure(d) => (t, Deny(d))
    case Success(_) =>
      match body
      case None => (t, Unhandled())
      case Some(b) =>
        var made := Created(Items(b), t.nextId);
        (Table(made + t.rows, t.nextId + |made|), Response(201, Json(made)))
  }

  /** A single object is handled exactly as a one-element array. */
  lemma SingleIsOneElementArray(header: Option<string>, verify: Verifier, x: NewSentence, t: Table)
    ensures Post(header, verify, Some(One(x)), t) == Post(header, verify, Some(Many([x])), t)
  {
  }

  /** Created ids are fresh when the table's ids are all below `nextId`. */
  lemma CreatedIdsAreFresh(header: Option<string>, verify: Verifier, body: Option<Batch>, t: Table)
    requires forall k :: 0 <= k < |t.rows| ==> t.rows[k].id < t.nextId
    ensures var t' := Post(header, verify, body, t).0;
      forall k :: 0 <= k < |t'.rows| ==> t'.rows[k].id < t'.nextId
    ensures var t' := Post(header, verify, body, t).0;
      forall k, l :: 0 <= k < l < |t'.rows| - |t.rows| ==> t'.rows[k].id != t'.rows[l].id
  {
    var t' := Post(header, verify, body, t).0;
    if RequireAdmin(header, verify).Success? && body.Some? {
      var made := Created(Items(body.value), t.nextId);
      forall k | 0 <= k < |t'.rows| ensures t'.rows[k].id < t'.nextId {
        if k >= |made| {
          assert t'.rows[k] == t.rows[k - |made|];
        }
      }
    }
  }
}

=== FILE: evaluate.dfy ===
/** `POST /api/practice/evaluate`: ask the language model to score a translation
    and hand back whatever JSON object it wrote. */
module Evaluate {
  import opened Wrappers
  import opened Http
  import opened Text
  import opened Extraction
  import opened Template

  /** The request body; `None` fields were absent. */
  datatype EvaluateRequest = EvaluateRequest(chinese: Option<string>,
                                             userTranslation: Option<string>,
                                             grammarType: Option<string>)

  const MissingParams := "缺少必要参数"
  const FormatError := "AI 返回格式异常"
  const Unavailable := "AI 评分服务暂时不可用"

  const GrammarSlot := "{grammarType}"
  const ChineseSlot := "{chinese}"
  const TranslationSlot := "{userTranslation}"

  // EVALUATE_PROMPT, cut at its placeholders (long lines are split into
  // shorter literals; the text is unchanged).
  const Head := "你是一位专业的英语教师。用户正在练习英语语法翻译，请评估他们的翻译质量。"
                + "\n\n" + "目标语法类型："
  const AfterGrammar := "\n中文原句："
  const AfterChinese := "\n用户翻译："
  const Tail := "\n\n请严格按照以下 JSON 格式返回评估结果（不要包含任何其他文字）：\n{\n"
                + "  \"totalScore\": <0-100的整数>,\n"
                + "  \"grammarScore\": <0-100的整数，语法正确性评分>,\n"
                + "  \"semanticScore\": <0-100的整数，语义准确性评分>,\n"
                + "  \"fluencyScore\": <0-100的整数，表达自然度评分>,\n"
                + "  \"feedback\": \"<对用户翻译的详细点评，指出错误并说明如何改正，用中文回答>\",\n"
                + "  \"referenceSimple\": \"<简单版参考译文>\",\n"
                + "  \"referenceMedium\": \"<中等版参考译文>\",\n"
                + "  \"referenceComplex\": \"<复杂版参考译文>\"\n"
                + "}"

  const EvaluatePrompt := Head + GrammarSlot + AfterGrammar + ChineseSlot + AfterChinese
                          + TranslationSlot + Tail

  lemma HeadOpensPrompt()
    ensures IsPrefix(Head, EvaluatePrompt)
  {
    var h := Head;
    assert (h + GrammarSlot)[..|h|] == h;
    PrefixOfConcat(h, h + GrammarSlot, AfterGrammar);
    PrefixOfConcat(h, h + GrammarSlot + AfterGrammar, ChineseSlot);
    PrefixOfConcat(h, h + GrammarSlot + AfterGrammar + ChineseSlot, AfterChinese);
    PrefixOfConcat(h, h + GrammarSlot + AfterGrammar + ChineseSlot + AfterChinese, TranslationSlot);
    PrefixOfConcat(h, h + GrammarSlot + AfterGrammar + ChineseSlot + AfterChinese + TranslationSlot, Tail);
  }

  /** `!chinese || !userTranslation || !grammarType`. */
  predicate MissingField(req: EvaluateRequest) {
    !Truthy(req.chinese) || !Truthy(req.userTranslation) || !Truthy(req.grammarType)
  }

  /** The three chained replacements, in the order of the source. */
  function BuildPrompt(grammarType: string, chinese: string, userTranslation: string): (r: string)
    ensures IsPrefix(Head, r)
  {
    PromptFences();
    HeadOpensPrompt();
    FillKeepsHead(Head, EvaluatePrompt, GrammarSlot, grammarType, ChineseSlot, chinese,
                  TranslationSlot, userTranslation);
    Fill(EvaluatePrompt, GrammarSlot, grammarType, ChineseSlot, chinese,
         TranslationSlot, userTranslation)
  }

  /** The route: `body` is `None` when `req.json()` throws (outside the `try`);
      `callModel` stands for `callKimi`, `None` when it throws; `parse` stands
      for `JSON.parse`, `None` when it throws. */
  function Post<J>(body: Option<EvaluateRequest>, callModel: string -> Option<string>,
                   parse: string -> Option<J>): (x: Exchange<J>)
    ensures body.None? ==> x == Exchange(None, Unhandled())
    ensures body.Some? && MissingField(body.value) ==> x == Exchange(None, Fail(400, MissingParams))
    ensures x.sent.Some? <==> body.Some? && !MissingField(body.value)
    ensures x.sent.Some? ==>
      x.sent.value == BuildPrompt(body.value.grammarType.value, body.value.chinese.value,
                                  body.value.userTranslation.value)
    ensures x.sent.Some? && callModel(x.sent.value).None? ==> x.response == Fail(500, Unavailable)
    ensures x.sent.Some? && callModel(x.sent.value).Some? ==>
      var reply := callModel(x.sent.value).value;
      && (!HasSpan(reply, '{', '}') ==> x.response == Fail(500, FormatError))
      && (forall i, j :: IsGreedyMatch(reply, '{', '}', i, j) ==>
            x.response == match parse(reply[i..j + 1])
                          case None => Fail(500, Unavailable)
                          case Some(v) => Ok(v))
  {
    match body
    case None => Exchange(None, Unhandled())
    case Some(req) =>
      if MissingField(req) then Exchange(None, Fail(400, MissingParams))
      else
        var prompt := BuildPrompt(req.grammarType.value, req.chinese.value, req.userTranslation.value);
        Exchange(Some(prompt), Judge(prompt, callModel, parse))
  }

  /** The `try` block: call the model, cut out the object, parse it. */
  function Judge<J>(prompt: string, callModel: string -> Option<string>,
                    parse: string -> Option<J>): (r: Response<J>)
    ensures callModel(prompt).None? ==> r == Fail(500, Unavailable)
    ensures callModel(prompt).Some? ==>
      var reply := callModel(prompt).value;
      && (!HasSpan(reply, '{', '}') ==> r == Fail(500, FormatError))
      && (forall i, j :: IsGreedyMatch(reply, '{', '}', i, j) ==>
            r == match parse(reply[i..j + 1])
                 case None => Fail(500, Unavailable)
                 case Some(v) => Ok(v))
  {
    match callModel(prompt)
    case None => Fail(500, Unavailable)
    case Some(reply) =>
      match GreedyMatch(reply, '{', '}')
      case None => Fail(500, FormatError)
      case Some(json) =>
        assert forall i, j :: IsGreedyMatch(reply, '{', '}', i, j) ==> reply[i..j + 1] == json by {
          forall i, j | IsGreedyMatch(reply, '{', '}', i, j)
            ensures reply[i..j + 1] == json
          {
            var b := GreedyBounds(reply, '{', '}').value;
            GreedyMatchUnique(reply, '{', '}', i, j, b.0, b.1);
          }
        }
        match parse(json)
        case None => Fail(500, Unavailable)
        case Some(v) => Ok(v)
  }

  /** A request missing a field never reaches the model: the answer is the
      same whatever the model and the parser would have done. */
  lemma MissingFieldSkipsModel<J>(req: EvaluateRequest, m1: string -> Option<string>,
                                  m2: string -> Option<string>, p1: string -> Option<J>,
                                  p2: string -> Option<J>)
    requires MissingField(req)
    ensures Post(Some(req), m1, p1) == Post(Some(req), m2, p2)
  {
  }

  /** A reply that holds an object which does not parse is reported as the
      service being unavailable, not as a format error. */
  lemma MalformedObjectIsUnavailable<J>(prompt: string, callModel: string -> Option<string>,
                                        parse: string -> Option<J>)
    requires callModel(prompt).Some? && HasSpan(callModel(prompt).value, '{', '}')
    requires parse(GreedyMatch(callModel(prompt).value, '{', '}').value).None?
    ensures Judge(prompt, callModel, parse) == Fail(500, Unavailable)
  {
  }

  lemma PromptFences()
    ensures Fence(Head, GrammarSlot, ChineseSlot, TranslationSlot)
    ensures Fence(AfterGrammar, GrammarSlot, ChineseSlot, TranslationSlot)
    ensures Fence(AfterChinese, GrammarSlot, ChineseSlot, TranslationSlot)
  {
  }

  /** When no value carries a placeholder filled after it, each placeholder is
      replaced exactly once, where it stands, and the rest of the template is kept. */
  lemma PromptFillsTemplate(grammarType: string, chinese: string, userTranslation: string)
    requires Avoids(grammarType, ChineseSlot) && Avoids(grammarType, TranslationSlot)
    requires Avoids(chinese, TranslationSlot)
    ensures BuildPrompt(grammarType, chinese, userTranslation)
            == Head + grammarType + AfterGrammar + chinese + AfterChinese + userTranslation + Tail
  {
    PromptFences();
    FillInPlace(Head, AfterGrammar, AfterChinese, Tail, GrammarSlot, ChineseSlot, TranslationSlot,
                grammarType, chinese, userTranslation);
  }

  /** The replacements are chained, not simultaneous: a grammar type that reads
      `{chinese}` is itself replaced by the sentence, and the template's own
      `{chinese}` is left in the prompt. */
  lemma ReplacementIsSequential(chinese: string, userTranslation: string)
    requires Avoids(chinese, TranslationSlot)
    ensures BuildPrompt(ChineseSlot, chinese, userTranslation)
            == Head + chinese + AfterGrammar + ChineseSlot + AfterChinese + userTranslation + Tail
  {
    PromptFences();
    FillSequential(Head, AfterGrammar, AfterChinese, Tail, GrammarSlot, ChineseSlot, TranslationSlot,
                   chinese, userTranslation);
  }
}

=== FILE: extraction.dfy ===
/** The greedy regular expressions `/\{[\s\S]*\}/` and `/\[[\s\S]*\]/` that the
    AI routes use to pull a JSON object or array out of a model reply. */
module Extraction {
  import opened Wrappers
  import opened Text

  /** The pattern `open[\s\S]*close` matches `s[i..j + 1]`: an opening
      delimiter, anything at all, then a closing delimiter further on. */
  predicate SpanAt(s: string, open: char, close: char, i: int, j: int) {
    0 <= i < j < |s| && s[i] == open && s[j] == close
  }

  ghost predicate HasSpan(s: string, open: char, close: char) {
    exists i, j :: SpanAt(s, open, close, i, j)
  }

  /** `s[i..j + 1]` is what `s.match(...)` returns for the greedy pattern: the
      match that starts leftmost and, from that start, runs longest. */
  ghost predicate IsGreedyMatch(s: string, open: char, close: char, i: int, j: int) {
    && SpanAt(s, open, close, i, j)
    && (forall i', j' :: i' < i ==> !SpanAt(s, open, close, i', j'))
    && (forall j' :: j < j' ==> !SpanAt(s, open, close, i, j'))
  }

  /** The bounds of the greedy match: the first opening delimiter and the last
      closing one, provided the first comes before the last. */
  function GreedyBounds(s: string, open: char, close: char): (r: Option<(nat, nat)>)
    ensures r.None? <==> !HasSpan(s, open, close)
    ensures r.Some? ==> IsGreedyMatch(s, open, close, r.value.0, r.value.1)
  {
    var first := FirstIndexOf(s, open);
    var last := LastIndexOf(s, close);
    BoundsAreGreedy(s, open, close);
    if first.Some? && last.Some? && first.value < last.value then
      Some((first.value, last.value))
    else
      None
  }

  lemma BoundsAreGreedy(s: string, open: char, close: char)
    ensures var first := FirstIndexOf(s, open);
      var last := LastIndexOf(s, close);
      if first.Some? && last.Some? && first.value < last.value
      then IsGreedyMatch(s, open, close, first.value, last.value)
      else !HasSpan(s, open, close)
  {
    var first := FirstIndexOf(s, open);
    var last := LastIndexOf(s, close);
    forall i, j | SpanAt(s, open, close, i, j)
      ensures first.Some? && last.Some? && first.value <= i && j <= last.value
    {
      assert s[i] == open && s[j] == close;
    }
  }

  /** The greedy match is unique, so `GreedyBounds` is the regular expression's answer. */
  lemma GreedyMatchUnique(s: string, open: char, close: char, i: int, j: int, i': int, j': int)
    requires IsGreedyMatch(s, open, close, i, j) && IsGreedyMatch(s, open, close, i', j')
    ensures i == i' && j == j'
  {
  }

  /** `s.match(pattern)?.[0]`: the matched text, or `None` when nothing matches. */
  function GreedyMatch(s: string, open: char, close: char): (r: Option<string>)
    ensures r.None? <==> !HasSpan(s, open, close)
    ensures r.Some? ==> exists i, j :: IsGreedyMatch(s, open, close, i, j) && r.value == s[i..j + 1]
  {
    match GreedyBounds(s, open, close)
    case None => None
    case Some((i, j)) => Some(s[i..j + 1])
  }

  /** The pattern matches exactly when the first opening delimiter comes before
      the last closing one, and the match runs from the one to the other. */
  lemma MatchIffFirstBeforeLast(s: string, open: char, close: char)
    ensures GreedyMatch(s, open, close).Some? <==>
      (&& FirstIndexOf(s, open).Some? && LastIndexOf(s, close).Some?
       && FirstIndexOf(s, open).value < LastIndexOf(s, close).value)
    ensures GreedyMatch(s, open, close).Some? ==>
      GreedyMatch(s, open, close).value
        == s[FirstIndexOf(s, open).value..LastIndexOf(s, close).value + 1]
  {
    BoundsAreGreedy(s, open, close);
  }
}

=== FILE: generate.dfy ===
/** `POST /api/admin/generate`: ask the language model for practice sentences
    of one grammar type and level. */
module Generate {
  import opened Wrappers
  import opened Http
  import opened Text
  import opened Extraction
  import opened Template
  import opened Tokens
  import opened AdminGuard
  import Grammar

  /** The request body; `count` is `None` only when the field is absent. */
  datatype GenerateRequest = GenerateRequest(grammarType: Option<string>, level: Option<string>,
                                             count: Option<int>)

  /** The success payload `{ sentences }`, holding the parsed value as it is. */
  datatype Generated<J> = Generated(sentences: J)

  const MissingFields := "缺少 grammarType 或 level"
  const FormatError := "AI 返回格式异常"
  const Unavailable := "AI 生成服务暂时不可用"
  const DefaultCount := 5

  const GrammarSlot := "{grammarType}"
  const LevelSlot := "{level}"
  const CountSlot := "{count}"

  // GENERATE_PROMPT, cut at its placeholders (long lines are split into
  // shorter literals; the text is unchanged).
  const Head := "你是一位专业的英语教师，正在为英语语法翻译练习应用准备中文句子。" + "\n\n"
                + "请根据以下要求生成中文句子，这些句子将被用户翻译成英文来练习特定的语法点。"
                + "\n\n" + "语法类型："
  const AfterGrammar := "\n难度等级："
  const AfterLevel := "\n生成数量："
  const Tail := "\n\n要求：\n"
                + "1. 每个句子都应该自然地引导用户使用目标语法结构\n"
                + "2. 句子内容贴近日常生活和工作场景\n"
                + "3. 难度要符合等级要求（初级=简单日常、中级=职场社交、高级=学术正式）\n"
                + "4. 句子之间主题尽量多样化\n\n"
                + "请严格按照以下 JSON 格式返回（不要包含任何其他文字）：\n"
                + "[\n  \"中文句子1\",\n  \"中文句子2\",\n  ...\n]"

  const GeneratePrompt := Head + GrammarSlot + AfterGrammar + LevelSlot + AfterLevel + CountSlot + Tail

  /** The destructuring default `count = 5` applies only to an absent field. */
  function EffectiveCount(count: Option<int>): (n: int)
    ensures count.None? ==> n == DefaultCount
    ensures count.Some? ==> n == count.value
  {
    count.GetOr(DefaultCount)
  }

  /** `levelMap[level] || level`: the Chinese name of a known level, any other
      level text as it is. */
  function LevelLabel(level: string): (r: string)
    ensures level in Grammar.LevelNames ==> r == Grammar.LevelNames[level]
    ensures level !in Grammar.LevelNames ==> r == level
  {
    if level in Grammar.LevelNames then Grammar.LevelNames[level] else level
  }

  function BuildPrompt(grammarType: string, level: string, count: int): (r: string)
    ensures IsPrefix(Head, r)
  {
    PromptFences();
    HeadOpensPrompt();
    FillKeepsHead(Head, GeneratePrompt, GrammarSlot, grammarType, LevelSlot, LevelLabel(level),
                  CountSlot, IntToString(count));
    Fill(GeneratePrompt, GrammarSlot, grammarType, LevelSlot, LevelLabel(level),
         CountSlot, IntToString(count))
  }

  lemma HeadOpensPrompt()
    ensures IsPrefix(Head, GeneratePrompt)
  {
    var h := Head;
    assert (h + GrammarSlot)[..|h|] == h;
    PrefixOfConcat(h, h + GrammarSlot, AfterGrammar);
    PrefixOfConcat(h, h + GrammarSlot + AfterGrammar, LevelSlot);
    PrefixOfConcat(h, h + GrammarSlot + AfterGrammar + LevelSlot, AfterLevel);
    PrefixOfConcat(h, h + GrammarSlot + AfterGrammar + LevelSlot + AfterLevel, CountSlot);
    PrefixOfConcat(h, h + GrammarSlot + AfterGrammar + LevelSlot + AfterLevel + CountSlot, Tail);
  }

  predicate MissingField(req: GenerateRequest) {
    !Truthy(req.grammarType) || !Truthy(req.level)
  }

  /** The route. The admin guard runs before the body is read: `body` is
      `None` when `req.json()` throws, which only matters once the guard passed. */
  function Post<J>(header: Option<string>, verify: Verifier, body: Option<GenerateRequest>,
                   callModel: string -> Option<string>, parse: string -> Option<J>)
    : (x: Exchange<Generated<J>>)
    ensures RequireAdmin(header, verify).Failure? ==>
      x == Exchange(None, Deny(RequireAdmin(header, verify).error))
    ensures RequireAdmin(header, verify).Success? && body.None? ==> x == Exchange(None, Unhandled())
    ensures RequireAdmin(header, verify).Success? && body.Some? && MissingField(body.value) ==>
      x == Exchange(None, Fail(400, MissingFields))
    ensures x.sent.Some? <==>
      RequireAdmin(header, verify).Success? && body.Some? && !MissingField(body.value)
    ensures x.sent.Some? ==>
      x.sent.value == BuildPrompt(body.value.grammarType.value, body.value.level.value,
                                  EffectiveCount(body.value.count))
    ensures x.sent.Some? && callModel(x.sent.value).None? ==> x.response == Fail(500, Unavailable)
    ensures x.sent.Some? && callModel(x.sent.value).Some? ==>
      var reply := callModel(x.sent.value).value;
      && (!HasSpan(reply, '[', ']') ==> x.response == Fail(500, FormatError))
      && (forall i, j :: IsGreedyMatch(reply, '[', ']', i, j) ==>
            x.response == match parse(reply[i..j + 1])
                          case None => Fail(500, Unavailable)
                          case Some(v) => Ok(Generated(v)))
  {
    match RequireAdmin(header, verify)
    case Failure(d) => Exchange(None, Deny(d))
    case Success(_) =>
      match body
      case None => Exchange(None, Unhandled())
      case Some(req) =>
        if MissingField(req) then Exchange(None, Fail(400, MissingFields))
        else
          var prompt := BuildPrompt(req.grammarType.value, req.level.value, EffectiveCount(req.count));
          Exchange(Some(prompt), Ask(prompt, callModel, parse))
  }

  /** The `try` block: call the model, cut out the array, parse it. */
  function Ask<J>(prompt: string, callModel: string -> Option<string>,
                  parse: string -> Option<J>): (r: Response<Generated<J>>)
    ensures callModel(prompt).None? ==> r == Fail(500, Unavailable)
    ensures callModel(prompt).Some? ==>
      var reply := callModel(prompt).value;
      && (!HasSpan(reply, '[', ']') ==> r == Fail(500, FormatError))
      && (forall i, j :: IsGreedyMatch(reply, '[', ']', i, j) ==>
            r == match parse(reply[i..j + 1])
                 case None => Fail(500, Unavailable)
                 case Some(v) => Ok(Generated(v)))
  {
    match callModel(prompt)
    case None => Fail(500, Unavailable)
    case Some(reply) =>
      match GreedyMatch(reply, '[', ']')
      case None => Fail(500, FormatError)
      case Some(json) =>
        assert forall i, j :: IsGreedyMatch(reply, '[', ']', i, j) ==> reply[i..j + 1] == json by {
          forall i, j | IsGreedyMatch(reply, '[', ']', i, j)
            ensures reply[i..j + 1] == json
          {
            var b := GreedyBounds(reply, '[', ']').value;
            GreedyMatchUnique(reply, '[', ']', i, j, b.0, b.1);
          }
        }
        match parse(json)
        case None => Fail(500, Unavailable)
        case Some(v) => Ok(Generated(v))
  }

  lemma PromptFences()
    ensures Fence(Head, GrammarSlot, LevelSlot, CountSlot)
    ensures Fence(AfterGrammar, GrammarSlot, LevelSlot, CountSlot)
    ensures Fence(AfterLevel, GrammarSlot, LevelSlot, CountSlot)
  {
  }

  /** A known level is written into the prompt as its Chinese name, any other
      level as it is, and the count as its decimal numeral; when the grammar
      type carries neither later placeholder and an unmapped level carries no
      `{count}`, each placeholder is replaced once, in place. */
  lemma PromptFillsTemplate(grammarType: string, level: string, count: int)
    requires Avoids(grammarType, LevelSlot) && Avoids(grammarType, CountSlot)
    requires Avoids(LevelLabel(level), CountSlot)
    ensures BuildPrompt(grammarType, level, count)
            == Head + grammarType + AfterGrammar + LevelLabel(level) + AfterLevel
               + IntToString(count) + Tail
  {
    PromptFences();
    FillInPlace(Head, AfterGrammar, AfterLevel, Tail, GrammarSlot, LevelSlot, CountSlot,
                grammarType, LevelLabel(level), IntToString(count));
  }

  /** The label of a known level never holds a placeholder, so for a known level
      the only condition left is on the grammar type. */
  lemma KnownLevelLabelIsPlain(level: string)
    requires level in Grammar.LevelNames
    ensures Avoids(LevelLabel(level), CountSlot)
  {
    AvoidsShorter(LevelLabel(level), CountSlot);
  }
}

=== FILE: grammar.dfy ===
/** Grammar types and their three difficulty levels. */
module Grammar {

  /** A row of the grammar-type table. */
  datatype GrammarType = GrammarType(id: int, name: string, nameEn: string, level: string)

  const Beginner := "BEGINNER"
  const Intermediate := "INTERMEDIATE"
  const Advanced := "ADVANCED"

  /** The order in which the levels are listed. */
  const Levels: seq<string> := [Beginner, Intermediate, Advanced]

  /** `levelMap` / `levelLabel`: the display name of each level. */
  const LevelNames: map<string, string> := map[Beginner := "初级", Intermediate := "中级", Advanced := "高级"]
}

=== FILE: home_page.dfy ===
/** The home page: grammar types grouped into one section per level. */
module HomePage {
  import opened Text
  import opened Grammar

  /** A grammar type as listed, with its number of practice sentences. */
  datatype Card = Card(grammarType: GrammarType, sentences: int)

  /** `grammarTypes.filter((g) => g.level === level)`. */
  function OfLevel(cards: seq<Card>, level: string): (r: seq<Card>)
    ensures |r| <= |cards|
    ensures forall c :: c in r ==> c.grammarType.level == level
  {
    if |cards| == 0 then []
    else
      (if cards[0].grammarType.level == level then [cards[0]] else []) + OfLevel(cards[1..], level)
  }

  /** A group holds every card of its level as often as the list does. */
  lemma {:induction false} OfLevelCounts(cards: seq<Card>, level: string, c: Card)
    ensures multiset(OfLevel(cards, level))[c] == if c.grammarType.level == level then multiset(cards)[c] else 0
  {
    if |cards| > 0 {
      OfLevelCounts(cards[1..], level, c);
      assert cards == [cards[0]] + cards[1..];
    }
  }

  /** Grouping keeps the listed order: it distributes over concatenation. */
  lemma {:induction false} OfLevelAppend(xs: seq<Card>, ys: seq<Card>, level: string)
    ensures OfLevel(xs + ys, level) == OfLevel(xs, level) + OfLevel(ys, level)
  {
    if |xs| == 0 {
      assert xs + ys == ys;
    } else {
      var head := if xs[0].grammarType.level == level then [xs[0]] else [];
      assert (xs + ys)[0] == xs[0];
      assert (xs + ys)[1..] == xs[1..] + ys;
      assert OfLevel(xs + ys, level) == head + OfLevel(xs[1..] + ys, level);
      OfLevelAppend(xs[1..], ys, level);
      assert OfLevel(xs, level) == head + OfLevel(xs[1..], level);
    }
  }

  /** The sections, in the fixed level order, each with its group. */
  function Sections(cards: seq<Card>): (r: seq<(string, seq<Card>)>)
    ensures |r| == |Levels|
    ensures forall k :: 0 <= k < |r| ==> r[k] == (Levels[k], OfLevel(cards, Levels[k]))
  {
    seq(|Levels|, k requires 0 <= k < |Levels| => (Levels[k], OfLevel(cards, Levels[k])))
  }

  /** How many cards have one of the three levels. */
  function CountKnown(cards: seq<Card>): nat {
    if |cards| == 0 then 0
    else (if cards[0].grammarType.level in Levels then 1 else 0) + CountKnown(cards[1..])
  }

  /** No card is in two groups. */
  lemma GroupsDisjoint(cards: seq<Card>, c: Card)
    ensures !(c in OfLevel(cards, Beginner) && c in OfLevel(cards, Intermediate))
    ensures !(c in OfLevel(cards, Beginner) && c in OfLevel(cards, Advanced))
    ensures !(c in OfLevel(cards, Intermediate) && c in OfLevel(cards, Advanced))
  {
  }

  /** The group sizes add up to the number of cards with a known level. */
  lemma {:induction false} GroupSizes(cards: seq<Card>)
    ensures |OfLevel(cards, Beginner)| + |OfLevel(cards, Intermediate)| + |OfLevel(cards, Advanced)|
            == CountKnown(cards)
  {
    if |cards| > 0 {
      GroupSizes(cards[1..]);
    }
  }

  const Suffix := " 道练习题"
  const NoSentences := "暂无练习题"

  /** The count line of a card. */
  function CardLabel(n: int): (r: string)
    ensures n <= 0 ==> r == NoSentences
    ensures n > 0 ==> |r| > |Suffix| && r[|r| - |Suffix|..] == Suffix
  {
    if n > 0 then IntToString(n) + Suffix else NoSentences
  }

  /** A positive count is printed as its numeral. */
  lemma CardLabelShowsCount(n: int)
    requires n > 0
    ensures var r := CardLabel(n);
      IsDigits(r[..|r| - |Suffix|]) && DecimalValue(r[..|r| - |Suffix|]) == n
  {
    var r := CardLabel(n);
    assert r[..|r| - |Suffix|] == NatToString(n);
    NatToStringRoundTrip(n);
  }
}

=== FILE: http.dfy ===
/** Route responses, abstracted from Next.js `NextResponse`. */
module Http {
  import opened Wrappers

  /** A response body: an `{ error }` object, a JSON payload, or nothing because
      the handler threw outside any `try` and the framework answered on its own. */
  datatype Body<T> = Error(message: string) | Json(value: T) | Crash

  datatype Response<T> = Response(status: int, body: Body<T>)

  /** A refusal produced by a request guard, before the route knows its payload type. */
  datatype Denial = Denial(status: int, message: string)

  function Fail<T>(status: int, message: string): Response<T> {
    Response(status, Error(message))
  }

  function Ok<T>(value: T): Response<T> {
    Response(200, Json(value))
  }

  /** The response a route returns when a guard refuses it. */
  function Deny<T>(d: Denial): Response<T> {
    Response(d.status, Error(d.message))
  }

  /** An exception thrown outside a `try`; Next.js answers 500 with no JSON body. */
  function Unhandled<T>(): Response<T> {
    Response(500, Crash)
  }

  /** What a route that consults the language model did: the prompt it sent,
      if it got that far, and the response it returned. */
  datatype Exchange<T> = Exchange(sent: Option<string>, response: Response<T>)

  const NotLoggedIn := "未登录"
  const AuthFailed := "认证失败"
}

=== FILE: practice_records.dfy ===
/** `POST` and `GET /api/practice/records`: saving a scored translation and
    listing the caller's recent ones. */
module PracticeRecords {
  import opened Wrappers
  import opened Http
  import opened Tokens

  /** The body of a save. `userId` stands for any user id a client might
      put in the body; the route never reads it. */
  datatype RecordBody = RecordBody(
    userId: Option<int>, sentenceId: int, userTranslation: string,
    totalScore: int, grammarScore: int, semanticScore: int, fluencyScore: int,
    feedback: string, referenceSimple: string, referenceMedium: string, referenceComplex: string)

  /** The row the route asks the database to insert. */
  datatype NewRecord = NewRecord(
    userId: int, sentenceId: int, userTranslation: string,
    totalScore: int, grammarScore: int, semanticScore: int, fluencyScore: int,
    feedback: string, referenceSimple: string, referenceMedium: string, referenceComplex: string)

  /** The ten body fields, copied as they are, under the token's user id. */
  function Copy(userId: int, b: RecordBody): (r: NewRecord)
    ensures r.userId == userId
  {
    NewRecord(userId, b.sentenceId, b.userTranslation, b.totalScore, b.grammarScore,
              b.semanticScore, b.fluencyScore, b.feedback, b.referenceSimple,
              b.referenceMedium, b.referenceComplex)
  }

  /** The body a row was copied from, up to the ignored `userId`. */
  function BodyOf(r: NewRecord): RecordBody {
    RecordBody(None, r.sentenceId, r.userTranslation, r.totalScore, r.grammarScore,
               r.semanticScore, r.fluencyScore, r.feedback, r.referenceSimple,
               r.referenceMedium, r.referenceComplex)
  }

  /** Nothing but the user id is added or lost in the copy: every one of the
      ten fields, scores included, goes in unchecked. */
  lemma CopyKeepsFields(userId: int, b: RecordBody)
    ensures BodyOf(Copy(userId, b)) == b.(userId := None)
  {
  }

  /** A save. Everything after the bearer check sits in one `try`: a token
      that does not verify, a body that does not parse, or an insert the
      database refuses (`insert` answering `None`) all give 401 `认证失败`.
      The result pairs the row the route tried to insert with its response. */
  function Post<R>(header: Option<string>, verify: Verifier, body: Option<RecordBody>,
                   insert: NewRecord -> Option<R>): (r: (Option<NewRecord>, Response<R>))
    ensures BearerToken(header).None? ==> r == (None, Fail(401, NotLoggedIn))
    ensures r.0.Some? <==>
      BearerToken(header).Some? && verify(BearerToken(header).value).Some? && body.Some?
    ensures BearerToken(header).Some? && r.0.None? ==> r.1 == Fail(401, AuthFailed)
    ensures r.0.Some? ==>
      && r.0.value == Copy(verify(BearerToken(header).value).value.userId, body.value)
      && r.1 == match insert(r.0.value)
                case None => Fail(401, AuthFailed)
                case Some(row) => Ok(row)
  {
    match BearerToken(header)
    case None => (None, Fail(401, NotLoggedIn))
    case Some(token) =>
      match verify(token)
      case None => (None, Fail(401, AuthFailed))
      case Some(payload) =>
        match body
        case None => (None, Fail(401, AuthFailed))
        case Some(b) =>
          var row := Copy(payload.userId, b);
          (Some(row), match insert(row) case None => Fail(401, AuthFailed) case Some(x) => Ok(x))
  }

  /** A user id in the body changes nothing: the record is always filed
      under the token's user. */
  lemma BodyUserIdIgnored<R>(header: Option<string>, verify: Verifier, body: RecordBody,
                             claimed: Option<int>, insert: NewRecord -> Option<R>)
    ensures Post(header, verify, Some(body.(userId := claimed)), insert) == Post(header, verify, Some(body), insert)
  {
  }

  // ------------------------------------------------------------------- GET

  /** A stored record, with its sentence's grammar type. */
  datatype Row = Row(id: int, userId: int, grammarTypeId: int, createdAt: int)

  /** The `where` object. */
  datatype Filter = Filter(userId: int, grammarTypeId: Option<int>)

  const Cap := 50

  predicate Matches(row: Row, f: Filter) {
    row.userId == f.userId && (f.grammarTypeId.None? || row.grammarTypeId == f.grammarTypeId.value)
  }

  /** The `where` built for a caller: always the user, and the grammar type
      only when the parameter is non-empty. */
  function FilterFor(userId: int, grammarTypeId: Option<int>): (f: Filter)
    ensures f.userId == userId && f.grammarTypeId == grammarTypeId
  {
    Filter(userId, grammarTypeId)
  }

  function Select(rows: seq<Row>, f: Filter): (r: seq<Row>)
    ensures |r| <= |rows|
    ensures forall x :: x in r ==> x in rows && Matches(x, f)
  {
    if |rows| == 0 then []
    else (if Matches(rows[0], f) then [rows[0]] else []) + Select(rows[1..], f)
  }

  /** Selecting distributes over concatenation: the matching rows keep the
      table order, and each appears as often as in the table. */
  lemma {:induction false} SelectAppend(xs: seq<Row>, ys: seq<Row>, f: Filter)
    ensures Select(xs + ys, f) == Select(xs, f) + Select(ys, f)
  {
    if |xs| == 0 {
      assert xs + ys == ys;
    } else {
      assert (xs + ys)[0] == xs[0];
      assert (xs + ys)[1..] == xs[1..] + ys;
      SelectAppend(xs[1..], ys, f);
    }
  }

  /** One row is selected exactly when it matches. */
  lemma SelectOne(row: Row, f: Filter)
    ensures Select([row], f) == if Matches(row, f) then [row] else []
  {
    assert [row][1..] == [];
  }

  /** Every matching row is selected. */
  lemma {:induction false} SelectComplete(rows: seq<Row>, f: Filter)
    ensures forall x :: x in rows && Matches(x, f) ==> x in Select(rows, f)
  {
    if |rows| > 0 {
      SelectComplete(rows[1..], f);
      assert forall x :: x in rows ==> x == rows[0] || x in rows[1..];
    }
  }

  /** Newest first, as `orderBy: { createdAt: 'desc' }` delivers them. */
  predicate NewestFirst(rows: seq<Row>) {
    forall k, l :: 0 <= k < l < |rows| ==> rows[k].createdAt >= rows[l].createdAt
  }

  lemma {:induction false} SelectKeepsOrder(rows: seq<Row>, f: Filter)
    requires NewestFirst(rows)
    ensures NewestFirst(Select(rows, f))
  {
    if |rows| > 0 {
      SelectKeepsOrder(rows[1..], f);
      forall x | x in rows[1..] ensures x.createdAt <= rows[0].createdAt {
        var j :| 0 <= j < |rows[1..]| && rows[1..][j] == x;
        assert rows[j + 1] == x;
      }
    }
  }

  /** The listing: the caller's newest 50 matching records, from a table
      already in `createdAt` descending order. */
  function Get(header: Option<string>, verify: Verifier, grammarTypeId: Option<int>, rows: seq<Row>)
    : (r: Response<seq<Row>>)
    ensures BearerToken(header).None? ==> r == Fail(401, NotLoggedIn)
    ensures BearerToken(header).Some? && verify(BearerToken(header).value).None? ==> r == Fail(401, AuthFailed)
    ensures r.status == 200 <==> BearerToken(header).Some? && verify(BearerToken(header).value).Some?
    ensures r.status == 200 ==>
      var all := Select(rows, FilterFor(verify(BearerToken(header).value).value.userId, grammarTypeId));
      r.body.Json? && |r.body.value| <= Cap && |r.body.value| <= |all|
      && r.body.value == all[..|r.body.value|]
      && (|all| <= Cap ==> r.body.value == all)
      && (|all| > Cap ==> |r.body.value| == Cap)
  {
    match BearerToken(header)
    case None => Fail(401, NotLoggedIn)
    case Some(token) =>
      match verify(token)
      case None => Fail(401, AuthFailed)
      case Some(payload) =>
        var all := Select(rows, FilterFor(payload.userId, grammarTypeId));
        Ok(if |all| <= Cap then all else all[..Cap])
  }

  /** Every listed record is the caller's, of the requested grammar type
      when one is given, and the list is newest first. */
  lemma ListingIsOwnAndNewestFirst(header: Option<string>, verify: Verifier, grammarTypeId: Option<int>,
                                   rows: seq<Row>)
    requires NewestFirst(rows)
    requires Get(header, verify, grammarTypeId, rows).status == 200
    ensures var out := Get(header, verify, grammarTypeId, rows).body.value;
      var uid := verify(BearerToken(header).value).value.userId;
      && NewestFirst(out)
      && forall x :: x in out ==>
           x in rows && x.userId == uid && (grammarTypeId.None? || x.grammarTypeId == grammarTypeId.value)
  {
    var uid := verify(BearerToken(header).value).value.userId;
    var all := Select(rows, FilterFor(uid, grammarTypeId));
    SelectKeepsOrder(rows, FilterFor(uid, grammarTypeId));
    var out := Get(header, verify, grammarTypeId, rows).body.value;
    assert forall x :: x in out ==> x in all;
  }
}

=== FILE: profile_page.dfy ===
/** The client logic of the profile page: change detection, the derived
    display name and avatar, and the effect of a save on the shown profile. */
module ProfilePage {
  import opened Wrappers
  import opened Http
  import opened Text
  import opened Tokens
  import opened Users
  import opened UserProfile

  /** `profile.nickname || ''`: the stored nickname as the input box shows it. */
  function Shown(p: Profile): (r: string)
    ensures Truthy(p.nickname) ==> r == p.nickname.value
    ensures !Truthy(p.nickname) ==> r == ""
  {
    if p.nickname.Some? then p.nickname.value else ""
  }

  /** `hasChanges`: the input differs from the stored nickname, an absent one
      counting as empty. */
  function HasChanges(input: string, p: Profile): (r: bool)
    ensures !r <==> if Truthy(p.nickname) then input == p.nickname.value else input == ""
  {
    input != Shown(p)
  }

  /** The save button is disabled while saving or when nothing changed. */
  function SaveDisabled(saving: bool, input: string, p: Profile): (r: bool)
    ensures !r <==> !saving && input != Shown(p)
  {
    saving || !HasChanges(input, p)
  }

  /** The name next to the avatar: the nickname, else the email up to its first `@`. */
  function DisplayName(p: Profile): (r: string)
    ensures Truthy(p.nickname) ==> r == p.nickname.value
    ensures !Truthy(p.nickname) ==> IsPrefix(r, p.email) && '@' !in r
    ensures !Truthy(p.nickname) && '@' in p.email ==> p.email[|r|] == '@'
    ensures !Truthy(p.nickname) && '@' !in p.email ==> r == p.email
  {
    if Truthy(p.nickname) then p.nickname.value else BeforeFirst(p.email, '@')
  }

  /** `toUpperCase` on one character, for the ASCII letters. */
  function UpperAscii(c: char): (u: char)
    ensures 'a' <= c <= 'z' ==> 'A' <= u <= 'Z' && u as int == c as int - 32
    ensures !('a' <= c <= 'z') ==> u == c
  {
    if 'a' <= c <= 'z' then (c as int - 32) as char else c
  }

  /** The avatar letter: the first character of the nickname, or of the
      email when there is no nickname, upper-cased; absent when that text is
      empty (where the page would throw). */
  function AvatarInitial(p: Profile): (r: Option<char>)
    ensures var source := if Truthy(p.nickname) then p.nickname.value else p.email;
      && (r.None? <==> source == "")
      && (r.Some? ==> r.value == UpperAscii(source[0]))
  {
    var source := if Truthy(p.nickname) then p.nickname.value else p.email;
    if source == "" then None else Some(UpperAscii(source[0]))
  }

  /** `{ ...prev, ...data }`: the reply's fields over the shown profile; the
      reply has no `createdAt`, so that one is kept. */
  function Merge(prev: Option<Profile>, data: PublicUser): (r: Option<Profile>)
    ensures r.None? <==> prev.None?
    ensures r.Some? ==> r.value.createdAt == prev.value.createdAt
    ensures r.Some? ==> PublicUser(r.value.id, r.value.email, r.value.nickname, r.value.role) == data
  {
    match prev
    case None => None
    case Some(p) => Some(Profile(data.id, data.email, data.nickname, data.role, p.createdAt))
  }

  datatype Tone = Good | Bad

  /** The notice under the form. */
  datatype Notice = Notice(tone: Tone, text: string)

  /** The page after a load: the profile shown, if any, and the last notice. */
  datatype View = View(profile: Option<Profile>, notice: Option<Notice>)

  const Saved := "保存成功"
  const NetworkError := "网络错误，请稍后重试"

  /** `handleSave` once the reply is in (`None` when the request itself
      failed). An `{ error }` reply shows its text and keeps the profile; a
      reply with no JSON body reads as a network error. */
  function Save(v: View, reply: Option<Response<PublicUser>>): (r: View)
    ensures reply.Some? && reply.value.body.Error? ==>
      r == View(v.profile, Some(Notice(Bad, reply.value.body.message)))
    ensures reply.Some? && reply.value.body.Json? ==>
      r == View(Merge(v.profile, reply.value.body.value), Some(Notice(Good, Saved)))
    ensures reply.None? || reply.value.body.Crash? ==> r == View(v.profile, Some(Notice(Bad, NetworkError)))
  {
    match reply
    case None => View(v.profile, Some(Notice(Bad, NetworkError)))
    case Some(res) =>
      match res.body
      case Error(m) => View(v.profile, Some(Notice(Bad, m)))
      case Json(data) => View(Merge(v.profile, data), Some(Notice(Good, Saved)))
      case Crash => View(v.profile, Some(Notice(Bad, NetworkError)))
  }

  /** The route answers 200 exactly with a JSON body and every refusal with
      an `{ error }` body, so branching on the body kind is branching on
      `res.ok`. */
  lemma PatchStatusMatchesBody(header: Option<string>, verify: Verifier, nickname: Option<Option<string>>,
                               s: Store)
    ensures var r := Patch(header, verify, nickname, s).1;
      (r.status == 200 <==> r.body.Json?) && (r.body.Error? ==> r.status != 200)
  {
  }

  /** After a successful save the input box still differs from the stored
      nickname exactly when the typed text had surrounding whitespace: the
      route trims, the input box does not. */
  lemma ChangesAfterSave(header: Option<string>, verify: Verifier, input: string, s: Store, p: Profile)
    requires Patch(header, verify, Some(Some(input)), s).1.status == 200
    ensures var v := Save(View(Some(p), None), Some(Patch(header, verify, Some(Some(input)), s).1));
      v.profile.Some? && (HasChanges(input, v.profile.value) <==> Trim(input) != input)
  {
  }
}

=== FILE: stats.dfy ===
/** `GET /api/stats`: per-grammar-type practice statistics of the caller. */
module Stats {
  import opened Wrappers
  import opened Http
  import opened Tokens
  import opened Grammar

  /** A practice record of the store, joined with its sentence's grammar type. */
  datatype ScoreRow = ScoreRow(userId: int, grammarTypeId: int, totalScore: int)

  datatype GrammarStat = GrammarStat(grammarType: GrammarType, totalPracticed: nat,
                                     avgScore: int, passRate: int)

  datatype StatsReply = StatsReply(stats: seq<GrammarStat>, totalPracticed: nat,
                                   weakPoints: seq<GrammarStat>)

  const PassMark := 60
  const WeakMinPracticed := 3
  const WeakBelow := 70

  // ------------------------------------------------------------- arithmetic

  /** `reduce((sum, r) => sum + r, 0)`. */
  function Sum(xs: seq<int>): int {
    if |xs| == 0 then 0 else Sum(xs[..|xs| - 1]) + xs[|xs| - 1]
  }

  /** How many scores reach the pass mark. */
  function CountPassing(xs: seq<int>): (n: nat)
    ensures n <= |xs|
  {
    if |xs| == 0 then 0
    else CountPassing(xs[..|xs| - 1]) + (if xs[|xs| - 1] >= PassMark then 1 else 0)
  }

  /** `Math.round(a / b)` on exact rationals: the nearest integer, halves
      rounded up, i.e. `r - 1/2 <= a/b < r + 1/2`. */
  function RoundHalfUp(a: int, b: int): (r: int)
    requires b > 0
    ensures 2 * b * r - b <= 2 * a < 2 * b * r + b
  {
    (2 * a + b) / (2 * b)
  }

  /** Rounding a quotient that lies between two integers stays between them. */
  lemma RoundWithin(a: int, b: int, lo: int, hi: int)
    requires b > 0 && b * lo <= a <= b * hi
    ensures lo <= RoundHalfUp(a, b) <= hi
  {
    var r := RoundHalfUp(a, b);
    assert 2 * b * (r - hi) <= b by {
      assert 2 * b * r - 2 * b * hi == 2 * b * (r - hi);
    }
    AtMostHalf(b, r - hi);
    assert 2 * b * (lo - r) < b by {
      assert 2 * b * lo - 2 * b * r == 2 * b * (lo - r);
    }
    AtMostHalf(b, lo - r);
  }

  /** An integer at most half of one is not positive. */
  lemma AtMostHalf(b: int, x: int)
    requires b > 0 && 2 * b * x <= b
    ensures x <= 0
  {
  }

  lemma {:induction false} SumWithin(xs: seq<int>, lo: int, hi: int)
    requires forall i :: 0 <= i < |xs| ==> lo <= xs[i] <= hi
    ensures |xs| * lo <= Sum(xs) <= |xs| * hi
  {
    if |xs| > 0 {
      var n := |xs| - 1;
      SumWithin(xs[..n], lo, hi);
      assert lo <= xs[n] <= hi;
      assert |xs| * lo == n * lo + lo && |xs| * hi == n * hi + hi;
    }
  }

  lemma {:induction false} CountPassingAll(xs: seq<int>)
    ensures (forall i :: 0 <= i < |xs| ==> xs[i] >= PassMark) ==> CountPassing(xs) == |xs|
    ensures (forall i :: 0 <= i < |xs| ==> xs[i] < PassMark) ==> CountPassing(xs) == 0
  {
    if |xs| > 0 {
      CountPassingAll(xs[..|xs| - 1]);
    }
  }

  // ------------------------------------------------------------ per type

  /** `avgScore`: the rounded mean, 0 for no scores. */
  function Average(xs: seq<int>): (r: int)
    ensures |xs| == 0 ==> r == 0
    ensures |xs| > 0 ==> 2 * |xs| * r - |xs| <= 2 * Sum(xs) < 2 * |xs| * r + |xs|
  {
    if |xs| > 0 then RoundHalfUp(Sum(xs), |xs|) else 0
  }

  /** The average lies between any bounds of the scores, so in particular
      between their minimum and their maximum. */
  lemma AverageWithin(xs: seq<int>, lo: int, hi: int)
    requires |xs| > 0
    requires forall i :: 0 <= i < |xs| ==> lo <= xs[i] <= hi
    ensures lo <= Average(xs) <= hi
  {
    SumWithin(xs, lo, hi);
    RoundWithin(Sum(xs), |xs|, lo, hi);
  }

  /** `passRate`: the rounded percentage of scores at or above the pass mark,
      0 for no scores. */
  function PassRate(xs: seq<int>): (r: int)
    ensures 0 <= r <= 100
    ensures |xs| > 0 && (forall i :: 0 <= i < |xs| ==> xs[i] >= PassMark) ==> r == 100
    ensures (forall i :: 0 <= i < |xs| ==> xs[i] < PassMark) ==> r == 0
    ensures |xs| > 0 ==> 2 * |xs| * r - |xs| <= 200 * CountPassing(xs) < 2 * |xs| * r + |xs|
  {
    if |xs| > 0 then
      CountPassingAll(xs);
      RoundWithin(100 * CountPassing(xs), |xs|, 0, 100);
      if CountPassing(xs) == |xs| then RoundWithin(100 * |xs|, |xs|, 100, 100); RoundHalfUp(100 * CountPassing(xs), |xs|)
      else if CountPassing(xs) == 0 then RoundWithin(0, |xs|, 0, 0); RoundHalfUp(100 * CountPassing(xs), |xs|)
      else RoundHalfUp(100 * CountPassing(xs), |xs|)
    else 0
  }

  /** The scores of the caller's records on sentences of one grammar type. */
  function ScoresOf(rows: seq<ScoreRow>, userId: int, grammarTypeId: int): (r: seq<int>)
    ensures |r| <= |rows|
    ensures forall i :: 0 <= i < |r| ==>
      exists k :: 0 <= k < |rows| && rows[k].userId == userId && rows[k].grammarTypeId == grammarTypeId
                  && rows[k].totalScore == r[i]
  {
    if |rows| == 0 then []
    else
      var init := rows[..|rows| - 1];
      var last := rows[|rows| - 1];
      var prefix := ScoresOf(init, userId, grammarTypeId);
      assert forall k :: 0 <= k < |init| ==> init[k] == rows[k];
      prefix + (if last.userId == userId && last.grammarTypeId == grammarTypeId then [last.totalScore] else [])
  }

  /** Selecting scores distributes over concatenation: the scores keep the
      order of the records, and each record gives at most its own score. */
  lemma {:induction false} ScoresOfAppend(xs: seq<ScoreRow>, ys: seq<ScoreRow>, userId: int, grammarTypeId: int)
    ensures ScoresOf(xs + ys, userId, grammarTypeId)
            == ScoresOf(xs, userId, grammarTypeId) + ScoresOf(ys, userId, grammarTypeId)
  {
    if |ys| == 0 {
      assert xs + ys == xs;
    } else {
      var n := |ys| - 1;
      assert (xs + ys)[..|xs + ys| - 1] == xs + ys[..n];
      assert (xs + ys)[|xs + ys| - 1] == ys[n];
      ScoresOfAppend(xs, ys[..n], userId, grammarTypeId);
    }
  }

  /** One record gives its score exactly when it is the caller's and of the type. */
  lemma ScoresOfOne(row: ScoreRow, userId: int, grammarTypeId: int)
    ensures ScoresOf([row], userId, grammarTypeId)
            == if row.userId == userId && row.grammarTypeId == grammarTypeId then [row.totalScore] else []
  {
    assert [row][..0] == [];
  }

  /** One entry: the type, how often it was practised, the rounded mean and
      the rounded percentage of passing scores, both 0 when unpractised. */
  function StatOf(rows: seq<ScoreRow>, userId: int, gt: GrammarType): (r: GrammarStat)
    ensures var xs := ScoresOf(rows, userId, gt.id);
      && r.grammarType == gt
      && r.totalPracticed == |xs|
      && (|xs| == 0 ==> r.avgScore == 0 && r.passRate == 0)
      && (|xs| > 0 ==> 2 * |xs| * r.avgScore - |xs| <= 2 * Sum(xs) < 2 * |xs| * r.avgScore + |xs|)
      && (|xs| > 0 ==> 2 * |xs| * r.passRate - |xs| <= 200 * CountPassing(xs) < 2 * |xs| * r.passRate + |xs|)
  {
    var scores := ScoresOf(rows, userId, gt.id);
    GrammarStat(gt, |scores|, Average(scores), PassRate(scores))
  }

  /** `stats`: one entry per grammar type, in the order the types were listed. */
  function StatsOf(rows: seq<ScoreRow>, userId: int, types: seq<GrammarType>): (r: seq<GrammarStat>)
    ensures |r| == |types|
    ensures forall k :: 0 <= k < |r| ==> r[k].grammarType == types[k]
    ensures forall k :: 0 <= k < |r| ==> r[k].totalPracticed == |ScoresOf(rows, userId, types[k].id)|
    ensures forall k :: 0 <= k < |r| ==>
      && r[k].avgScore == Average(ScoresOf(rows, userId, types[k].id))
      && r[k].passRate == PassRate(ScoresOf(rows, userId, types[k].id))
  {
    seq(|types|, k requires 0 <= k < |types| => StatOf(rows, userId, types[k]))
  }

  /** With scores in 0..100 every entry has its average and pass rate in 0..100. */
  lemma StatInRange(rows: seq<ScoreRow>, userId: int, gt: GrammarType)
    requires forall k :: 0 <= k < |rows| ==> 0 <= rows[k].totalScore <= 100
    ensures 0 <= StatOf(rows, userId, gt).avgScore <= 100
    ensures 0 <= StatOf(rows, userId, gt).passRate <= 100
  {
    var xs := ScoresOf(rows, userId, gt.id);
    ScoresWithin(rows, userId, gt.id);
    if |xs| > 0 {
      AverageWithin(xs, 0, 100);
    }
  }

  lemma {:induction false} ScoresWithin(rows: seq<ScoreRow>, userId: int, grammarTypeId: int)
    requires forall k :: 0 <= k < |rows| ==> 0 <= rows[k].totalScore <= 100
    ensures forall i :: 0 <= i < |ScoresOf(rows, userId, grammarTypeId)| ==>
              0 <= ScoresOf(rows, userId, grammarTypeId)[i] <= 100
  {
    if |rows| > 0 {
      ScoresWithin(rows[..|rows| - 1], userId, grammarTypeId);
    }
  }

  // ------------------------------------------------------------ the total

  /** The overall `totalPracticed`: the per-type counts added up. */
  function GrandTotal(stats: seq<GrammarStat>): (r: nat)
    ensures forall k :: 0 <= k < |stats| ==> stats[k].totalPracticed <= r
    ensures r == 0 <==> forall k :: 0 <= k < |stats| ==> stats[k].totalPracticed == 0
  {
    if |stats| == 0 then 0
    else
      var init := stats[..|stats| - 1];
      assert forall k :: 0 <= k < |init| ==> init[k] == stats[k];
      GrandTotal(init) + stats[|stats| - 1].totalPracticed
  }

  /** How many of the caller's records belong to a grammar type in `ids`. */
  function CountOwn(rows: seq<ScoreRow>, userId: int, ids: set<int>): nat {
    if |rows| == 0 then 0
    else
      var last := rows[|rows| - 1];
      CountOwn(rows[..|rows| - 1], userId, ids)
        + (if last.userId == userId && last.grammarTypeId in ids then 1 else 0)
  }

  function IdsOf(types: seq<GrammarType>): set<int> {
    set k | 0 <= k < |types| :: types[k].id
  }

  predicate DistinctIds(types: seq<GrammarType>) {
    forall k, l :: 0 <= k < l < |types| ==> types[k].id != types[l].id
  }

  lemma {:induction false} CountOwnAdd(rows: seq<ScoreRow>, userId: int, ids: set<int>, id: int)
    requires id !in ids
    ensures CountOwn(rows, userId, ids + {id}) == CountOwn(rows, userId, ids) + |ScoresOf(rows, userId, id)|
  {
    if |rows| > 0 {
      CountOwnAdd(rows[..|rows| - 1], userId, ids, id);
    }
  }

  /** The grand total counts every record of the caller whose sentence belongs
      to a listed grammar type, each exactly once. */
  lemma {:induction false} GrandTotalCountsOwnRecords(rows: seq<ScoreRow>, userId: int,
                                                      types: seq<GrammarType>)
    requires DistinctIds(types)
    ensures GrandTotal(StatsOf(rows, userId, types)) == CountOwn(rows, userId, IdsOf(types))
  {
    if |types| == 0 {
      assert IdsOf(types) == {};
      CountOwnEmpty(rows, userId);
    } else {
      var init := types[..|types| - 1];
      var last := types[|types| - 1];
      GrandTotalCountsOwnRecords(rows, userId, init);
      assert StatsOf(rows, userId, types)[..|types| - 1] == StatsOf(rows, userId, init);
      assert IdsOf(types) == IdsOf(init) + {last.id} by {
        forall x | x in IdsOf(types) ensures x in IdsOf(init) + {last.id} {
          var k :| 0 <= k < |types| && types[k].id == x;
          if k < |types| - 1 {
            assert init[k].id == x;
          }
        }
        forall x | x in IdsOf(init) ensures x in IdsOf(types) {
          var k :| 0 <= k < |init| && init[k].id == x;
          assert types[k].id == x;
        }
      }
      assert last.id !in IdsOf(init);
      CountOwnAdd(rows, userId, IdsOf(init), last.id);
    }
  }

  lemma {:induction false} CountOwnEmpty(rows: seq<ScoreRow>, userId: int)
    ensures CountOwn(rows, userId, {}) == 0
  {
    if |rows| > 0 {
      CountOwnEmpty(rows[..|rows| - 1], userId);
    }
  }

  // ----------------------------------------------------------- weak points

  predicate IsWeak(s: GrammarStat) {
    s.totalPracticed >= WeakMinPracticed && s.avgScore < WeakBelow
  }

  /** `.filter((s) => s.totalPracticed >= 3 && s.avgScore < 70)`. */
  function FilterWeak(stats: seq<GrammarStat>): seq<GrammarStat> {
    if |stats| == 0 then []
    else (if IsWeak(stats[0]) then [stats[0]] else []) + FilterWeak(stats[1..])
  }

  /** A weak entry is kept as often as it occurs, and nothing else is kept. */
  lemma {:induction false} FilterWeakCounts(stats: seq<GrammarStat>, s: GrammarStat)
    ensures multiset(FilterWeak(stats))[s] == if IsWeak(s) then multiset(stats)[s] else 0
  {
    if |stats| > 0 {
      FilterWeakCounts(stats[1..], s);
      assert stats == [stats[0]] + stats[1..];
    }
  }

  /** Keeping the weak entries distributes over concatenation, so `.filter`
      keeps the order of `stats`. */
  lemma {:induction false} FilterWeakAppend(xs: seq<GrammarStat>, ys: seq<GrammarStat>)
    ensures FilterWeak(xs + ys) == FilterWeak(xs) + FilterWeak(ys)
  {
    if |xs| == 0 {
      assert xs + ys == ys;
    } else {
      assert xs + ys == [xs[0]] + (xs[1..] + ys);
      assert xs == [xs[0]] + xs[1..];
      FilterWeakCons(xs[0], xs[1..] + ys);
      FilterWeakCons(xs[0], xs[1..]);
      FilterWeakAppend(xs[1..], ys);
    }
  }

  /** One entry is kept exactly when it is weak. */
  lemma FilterWeakOne(s: GrammarStat)
    ensures FilterWeak([s]) == if IsWeak(s) then [s] else []
  {
    assert [s][1..] == [];
  }

  predicate SortedByAverage(xs: seq<GrammarStat>) {
    forall k, l :: 0 <= k < l < |xs| ==> xs[k].avgScore <= xs[l].avgScore
  }

  /** The entries with a given average, in order. */
  function WithAverage(xs: seq<GrammarStat>, avg: int): seq<GrammarStat> {
    if |xs| == 0 then []
    else (if xs[0].avgScore == avg then [xs[0]] else []) + WithAverage(xs[1..], avg)
  }

  /** Selecting by average and keeping the weak entries commute. */
  lemma {:induction false} WithAverageFilterWeak(xs: seq<GrammarStat>, avg: int)
    ensures WithAverage(FilterWeak(xs), avg) == FilterWeak(WithAverage(xs, avg))
  {
    if |xs| > 0 {
      var x, tail := xs[0], xs[1..];
      assert xs == [x] + tail;
      FilterWeakCons(x, tail);
      WithAverageCons(x, tail, avg);
      WithAverageFilterWeak(tail, avg);
      var kept := FilterWeak(tail);
      var same := WithAverage(tail, avg);
      var a := if IsWeak(x) && x.avgScore == avg then [x] else [];
      if IsWeak(x) {
        WithAverageCons(x, kept, avg);
        assert WithAverage(FilterWeak(xs), avg) == a + WithAverage(kept, avg);
      } else {
        assert FilterWeak(xs) == [] + kept == kept;
      }
      if x.avgScore == avg {
        FilterWeakCons(x, same);
        assert FilterWeak(WithAverage(xs, avg)) == a + FilterWeak(same);
      } else {
        assert WithAverage(xs, avg) == [] + same == same;
      }
    }
  }

  lemma FilterWeakCons(x: GrammarStat, xs: seq<GrammarStat>)
    ensures FilterWeak([x] + xs) == (if IsWeak(x) then [x] else []) + FilterWeak(xs)
  {
    assert ([x] + xs)[1..] == xs;
  }

  /** Insert `x` before the first entry whose average is not smaller. */
  function Insert(x: GrammarStat, xs: seq<GrammarStat>): seq<GrammarStat> {
    if |xs| == 0 || x.avgScore <= xs[0].avgScore then [x] + xs
    else [xs[0]] + Insert(x, xs[1..])
  }

  lemma WithAverageCons(x: GrammarStat, xs: seq<GrammarStat>, avg: int)
    ensures WithAverage([x] + xs, avg) == (if x.avgScore == avg then [x] else []) + WithAverage(xs, avg)
  {
    assert ([x] + xs)[1..] == xs;
  }

  lemma {:induction false} InsertPermutes(x: GrammarStat, xs: seq<GrammarStat>)
    ensures multiset(Insert(x, xs)) == multiset(xs) + multiset{x}
  {
    if |xs| > 0 && x.avgScore > xs[0].avgScore {
      InsertPermutes(x, xs[1..]);
      assert xs == [xs[0]] + xs[1..];
    }
  }

  lemma {:induction false} InsertSorted(x: GrammarStat, xs: seq<GrammarStat>)
    requires SortedByAverage(xs)
    ensures SortedByAverage(Insert(x, xs))
    ensures |Insert(x, xs)| == |xs| + 1
    ensures Insert(x, xs)[0] == x || (|xs| > 0 && Insert(x, xs)[0] == xs[0])
  {
    if |xs| > 0 && x.avgScore > xs[0].avgScore {
      InsertSorted(x, xs[1..]);
    }
  }

  lemma {:induction false} InsertStable(x: GrammarStat, xs: seq<GrammarStat>, avg: int)
    ensures WithAverage(Insert(x, xs), avg) == (if x.avgScore == avg then [x] else []) + WithAverage(xs, avg)
  {
    if |xs| == 0 || x.avgScore <= xs[0].avgScore {
      WithAverageCons(x, xs, avg);
    } else {
      InsertStable(x, xs[1..], avg);
      WithAverageCons(xs[0], Insert(x, xs[1..]), avg);
      WithAverageCons(xs[0], xs[1..], avg);
      assert xs == [xs[0]] + xs[1..];
    }
  }

  /** `.sort((a, b) => a.avgScore - b.avgScore)`, stably: insertion sort. */
  function SortByAverage(xs: seq<GrammarStat>): (r: seq<GrammarStat>)
    ensures SortedByAverage(r)
    ensures multiset(r) == multiset(xs)
    ensures forall avg :: WithAverage(r, avg) == WithAverage(xs, avg)
  {
    if |xs| == 0 then []
    else
      var rest := SortByAverage(xs[1..]);
      InsertPermutes(xs[0], rest);
      InsertSorted(xs[0], rest);
      assert xs == [xs[0]] + xs[1..];
      assert forall avg :: WithAverage(Insert(xs[0], rest), avg) == WithAverage(xs, avg) by {
        forall avg ensures WithAverage(Insert(xs[0], rest), avg) == WithAverage(xs, avg) {
          InsertStable(xs[0], rest, avg);
          WithAverageCons(xs[0], xs[1..], avg);
        }
      }
      Insert(xs[0], rest)
  }

  /** `weakPoints`: every weak entry of `stats`, as often as it occurs there,
      in ascending average and, among equal averages, in the order of `stats`. */
  function WeakPoints(stats: seq<GrammarStat>): (r: seq<GrammarStat>)
    ensures forall s :: multiset(r)[s] == if IsWeak(s) then multiset(stats)[s] else 0
    ensures forall k :: 0 <= k < |r| ==> IsWeak(r[k])
    ensures SortedByAverage(r)
    ensures forall avg :: WithAverage(r, avg) == FilterWeak(WithAverage(stats, avg))
  {
    var r := SortByAverage(FilterWeak(stats));
    forall s ensures multiset(r)[s] == if IsWeak(s) then multiset(stats)[s] else 0 {
      FilterWeakCounts(stats, s);
    }
    forall avg ensures WithAverage(r, avg) == FilterWeak(WithAverage(stats, avg)) {
      WithAverageFilterWeak(stats, avg);
    }
    assert forall k :: 0 <= k < |r| ==> IsWeak(r[k]) by {
      forall k | 0 <= k < |r| ensures IsWeak(r[k]) {
        assert r[k] in multiset(r);
      }
    }
    r
  }

  // ------------------------------------------------------------- the route

  /** The route: a missing bearer header is 401 `未登录`, a token that does not
      verify 401 `认证失败`; otherwise the statistics of the token's user. */
  function Get(header: Option<string>, verify: Verifier, types: seq<GrammarType>,
               rows: seq<ScoreRow>): (r: Response<StatsReply>)
    ensures BearerToken(header).None? ==> r == Fail(401, NotLoggedIn)
    ensures BearerToken(header).Some? && verify(BearerToken(header).value).None? ==>
      r == Fail(401, AuthFailed)
    ensures r.status == 200 <==> BearerToken(header).Some? && verify(BearerToken(header).value).Some?
    ensures r.status == 200 ==>
      var stats := StatsOf(rows, verify(BearerToken(header).value).value.userId, types);
      r == Ok(StatsReply(stats, GrandTotal(stats), WeakPoints(stats)))
  {
    match BearerToken(header)
    case None => Fail(401, NotLoggedIn)
    case Some(token) =>
      match verify(token)
      case None => Fail(401, AuthFailed)
      case Some(payload) =>
        var stats := StatsOf(rows, payload.userId, types);
        Ok(StatsReply(stats, GrandTotal(stats), WeakPoints(stats)))
  }
}

=== FILE: stats_page.dfy ===
/** The view helpers of the statistics page. */
module StatsPage {
  import opened Text
  import opened Stats
  import opened Grammar

  /** The three score bands both colour helpers distinguish. */
  datatype Band = Good | Fair | Poor

  function BandOf(score: int): (b: Band)
    ensures b == Good <==> score >= 80
    ensures b == Fair <==> 60 <= score < 80
    ensures b == Poor <==> score < 60
  {
    if score >= 80 then Good else if score >= 60 then Fair else Poor
  }

  /** `scoreColor`: the text colour class of a score. */
  function ScoreColor(score: int): (r: string)
    ensures r == TextClass(BandOf(score))
  {
    if score >= 80 then "text-success"
    else if score >= 60 then "text-warning"
    else "text-error"
  }

  /** `barColor`: the bar colour class of a score. */
  function BarColor(score: int): (r: string)
    ensures r == BarClass(BandOf(score))
  {
    if score >= 80 then "bg-success"
    else if score >= 60 then "bg-warning"
    else "bg-error"
  }

  function TextClass(b: Band): string {
    match b
    case Good => "text-success"
    case Fair => "text-warning"
    case Poor => "text-error"
  }

  function BarClass(b: Band): string {
    match b
    case Good => "bg-success"
    case Fair => "bg-warning"
    case Poor => "bg-error"
  }

  /** Both colour helpers are a function of the band alone, and they tell the
      bands apart: two scores get the same text colour iff they get the same
      bar colour iff they fall in the same band. */
  lemma ColoursFollowBand(a: int, b: int)
    ensures ScoreColor(a) == TextClass(BandOf(a)) && BarColor(a) == BarClass(BandOf(a))
    ensures ScoreColor(a) == ScoreColor(b) <==> BandOf(a) == BandOf(b)
    ensures BarColor(a) == BarColor(b) <==> BandOf(a) == BandOf(b)
  {
    assert "text-success"[5] == 's' && "text-warning"[5] == 'w' && "text-error"[5] == 'e';
    assert "bg-success"[3] == 's' && "bg-warning"[3] == 'w' && "bg-error"[3] == 'e';
  }

  /** A weak point is never coloured as a success. */
  lemma WeakPointNotSuccess(s: GrammarStat)
    requires IsWeak(s)
    ensures BandOf(s.avgScore) != Good
    ensures ScoreColor(s.avgScore) != "text-success" && BarColor(s.avgScore) != "bg-success"
  {
    ColoursFollowBand(s.avgScore, 80);
  }

  /** `Math.max(score, 4)`: the percentage the bar is drawn with. */
  function BarPercent(score: int): (w: int)
    ensures w >= 4 && w >= score
    ensures w == score || w == 4
  {
    if score > 4 then score else 4
  }

  /** `barWidth`: the CSS width, the percentage followed by `%`. */
  function BarWidth(score: int): (w: string)
    ensures |w| > 1 && w[|w| - 1] == '%'
  {
    IntToString(BarPercent(score)) + "%"
  }

  /** The bar width of a score of at least 4 reads back as that score. */
  lemma BarWidthShowsScore(score: int)
    requires score >= 4
    ensures var w := BarWidth(score);
      IsDigits(w[..|w| - 1]) && DecimalValue(w[..|w| - 1]) == score
  {
    var w := BarWidth(score);
    assert w[..|w| - 1] == NatToString(score);
    NatToStringRoundTrip(score);
  }

  /** The "已练习语法类型" figure: how many grammar types were practised. */
  function PracticedTypes(stats: seq<GrammarStat>): (n: nat)
    ensures n <= |stats|
    ensures n == 0 <==> forall k :: 0 <= k < |stats| ==> stats[k].totalPracticed == 0
    ensures n == |stats| <==> forall k :: 0 <= k < |stats| ==> stats[k].totalPracticed > 0
  {
    if |stats| == 0 then 0
    else
      var n := PracticedTypes(stats[..|stats| - 1]);
      assert forall k :: 0 <= k < |stats| - 1 ==> stats[..|stats| - 1][k] == stats[k];
      n + (if stats[|stats| - 1].totalPracticed > 0 then 1 else 0)
  }

  /** Each practised type accounts for at least one practice, so the figure
      never exceeds the grand total. */
  lemma {:induction false} PracticedTypesAtMostTotal(stats: seq<GrammarStat>)
    ensures PracticedTypes(stats) <= GrandTotal(stats)
  {
    if |stats| > 0 {
      PracticedTypesAtMostTotal(stats[..|stats| - 1]);
    }
  }

  const NotPracticedLabel := "未练习"

  /** The score column of a row. */
  datatype ScoreCell = Score(value: int, colour: string) | NotPracticed

  function CellOf(s: GrammarStat): (c: ScoreCell)
    ensures c.Score? <==> s.totalPracticed > 0
    ensures c.Score? ==> c.value == s.avgScore && c.colour == TextClass(BandOf(s.avgScore))
  {
    ColoursFollowBand(s.avgScore, s.avgScore);
    if s.totalPracticed > 0 then Score(s.avgScore, ScoreColor(s.avgScore)) else NotPracticed
  }

  /** The text of the score column: `{avgScore}分` or `未练习`. */
  function CellText(c: ScoreCell): (r: string)
    ensures c.NotPracticed? <==> r == NotPracticedLabel
    ensures c.Score? ==> |r| > 1 && r[|r| - 1] == '分'
  {
    match c
    case Score(v, _) =>
      var t := IntToString(v) + "分";
      assert t[|t| - 1] != NotPracticedLabel[|NotPracticedLabel| - 1];
      t
    case NotPracticed => NotPracticedLabel
  }

  /** The score reads back from its cell. */
  lemma CellTextShowsScore(c: ScoreCell)
    requires c.Score? && c.value >= 0
    ensures var t := CellText(c);
      IsDigits(t[..|t| - 1]) && DecimalValue(t[..|t| - 1]) == c.value
  {
    var t := CellText(c);
    assert t[..|t| - 1] == NatToString(c.value);
    NatToStringRoundTrip(c.value);
  }

  /** A grammar type with no records shows `未练习`, a minimal red bar. */
  lemma UnpractisedRow(rows: seq<ScoreRow>, userId: int, gt: GrammarType)
    requires |ScoresOf(rows, userId, gt.id)| == 0
    ensures var s := StatOf(rows, userId, gt);
      CellText(CellOf(s)) == NotPracticedLabel && BarPercent(s.avgScore) == 4
      && BarColor(s.avgScore) == "bg-error"
  {
  }
}

=== FILE: template.dfy ===
/** Prompt building: a fixed template whose three `{name}` placeholders are
    filled by three chained `String.prototype.replace` calls. */
module Template {
  import opened Text

  /** A placeholder token such as `{grammarType}`. */
  predicate IsPlaceholder(p: string) {
    |p| > 0 && p[0] == '{'
  }

  /** Template text around placeholders: non-empty, free of `{`, and with end
      characters that occur in no placeholder, so no occurrence of a
      placeholder can begin inside it or run across its ends. */
  predicate Fence(t: string, p1: string, p2: string, p3: string) {
    && |t| > 0 && '{' !in t
    && t[0] !in p1 && t[0] !in p2 && t[0] !in p3
    && t[|t| - 1] !in p1 && t[|t| - 1] !in p2 && t[|t| - 1] !in p3
  }

  /** `template.replace(p1, v1).replace(p2, v2).replace(p3, v3)`. */
  function Fill(template: string, p1: string, v1: string, p2: string, v2: string,
                p3: string, v3: string): string
  {
    ReplaceFirst(ReplaceFirst(ReplaceFirst(template, p1, v1), p2, v2), p3, v3)
  }

  /** Whatever the values hold, the text before the first placeholder
      opens the result. */
  lemma FillKeepsHead(t0: string, t: string, p1: string, v1: string, p2: string, v2: string,
                      p3: string, v3: string)
    requires IsPlaceholder(p1) && IsPlaceholder(p2) && IsPlaceholder(p3) && Fence(t0, p1, p2, p3)
    requires IsPrefix(t0, t)
    ensures IsPrefix(t0, Fill(t, p1, v1, p2, v2, p3, v3))
  {
    FenceAvoids(t0, p1, p2, p3);
    var a1 := ReplaceFirst(t, p1, v1);
    var a2 := ReplaceFirst(a1, p2, v2);
    ReplaceKeepsPrefix(t0, t, p1, v1);
    ReplaceKeepsPrefix(t0, a1, p2, v2);
    ReplaceKeepsPrefix(t0, a2, p3, v3);
  }

  lemma FenceAvoids(t: string, p1: string, p2: string, p3: string)
    requires Fence(t, p1, p2, p3) && IsPlaceholder(p1) && IsPlaceholder(p2) && IsPlaceholder(p3)
    ensures Avoids(t, p1) && Avoids(t, p2) && Avoids(t, p3)
  {
    AvoidsByFirstChar(t, p1);
    AvoidsByFirstChar(t, p2);
    AvoidsByFirstChar(t, p3);
  }

  /** Each placeholder is replaced once, in place, and the template text around
      them is kept, provided no value carries a placeholder that is substituted
      after it (the chained calls would otherwise rewrite the inserted copy). */
  lemma {:induction false} FillInPlace(t0: string, t1: string, t2: string, t3: string,
                                       p1: string, p2: string, p3: string,
                                       v1: string, v2: string, v3: string)
    requires IsPlaceholder(p1) && IsPlaceholder(p2) && IsPlaceholder(p3)
    requires Fence(t0, p1, p2, p3) && Fence(t1, p1, p2, p3) && Fence(t2, p1, p2, p3)
    requires Avoids(v1, p2) && Avoids(v1, p3) && Avoids(v2, p3)
    ensures Fill(t0 + p1 + t1 + p2 + t2 + p3 + t3, p1, v1, p2, v2, p3, v3)
            == t0 + v1 + t1 + v2 + t2 + v3 + t3
  {
    FenceAvoids(t0, p1, p2, p3);
    FenceAvoids(t1, p1, p2, p3);
    FenceAvoids(t2, p1, p2, p3);
    // first call: `p1` right after `t0`
    var rest1 := t1 + p2 + t2 + p3 + t3;
    assert t0 + p1 + t1 + p2 + t2 + p3 + t3 == t0 + p1 + rest1;
    ReplaceAfter(t0, p1, rest1, v1);
    // second call: `p2` right after `t0 + v1 + t1`
    var a2 := t0 + v1 + t1;
    var rest2 := t2 + p3 + t3;
    assert t0 + v1 + rest1 == a2 + p2 + rest2;
    AvoidsConcat(t0, v1, p2);
    AvoidsConcat(t0 + v1, t1, p2);
    ReplaceAfter(a2, p2, rest2, v2);
    // third call: `p3` right after `t0 + v1 + t1 + v2 + t2`
    var a3 := a2 + v2 + t2;
    assert a2 + v2 + rest2 == a3 + p3 + t3;
    AvoidsConcat(t0, v1, p3);
    AvoidsConcat(t0 + v1, t1, p3);
    AvoidsConcat(a2, v2, p3);
    AvoidsConcat(a2 + v2, t2, p3);
    ReplaceAfter(a3, p3, t3, v3);
  }

  /** The chain is sequential: when the first value is the second placeholder
      itself, the second call replaces that inserted copy, and the template's
      own second placeholder stays as it is. */
  lemma {:induction false} FillSequential(t0: string, t1: string, t2: string, t3: string,
                                          p1: string, p2: string, p3: string, v2: string, v3: string)
    requires IsPlaceholder(p1) && IsPlaceholder(p2) && IsPlaceholder(p3)
    requires Fence(t0, p1, p2, p3) && Fence(t1, p1, p2, p3) && Fence(t2, p1, p2, p3)
    requires |p2| < |p3| && Avoids(v2, p3)
    ensures Fill(t0 + p1 + t1 + p2 + t2 + p3 + t3, p1, p2, p2, v2, p3, v3)
            == t0 + v2 + t1 + p2 + t2 + v3 + t3
  {
    FenceAvoids(t0, p1, p2, p3);
    FenceAvoids(t1, p1, p2, p3);
    FenceAvoids(t2, p1, p2, p3);
    // first call: `p1` right after `t0` becomes a copy of `p2`
    var rest := t1 + p2 + t2 + p3 + t3;
    assert t0 + p1 + t1 + p2 + t2 + p3 + t3 == t0 + p1 + rest;
    ReplaceAfter(t0, p1, rest, p2);
    // second call: that copy is now the first `p2`
    ReplaceAfter(t0, p2, rest, v2);
    // third call: `p3` right after `t0 + v2 + t1 + p2 + t2`
    var a3 := t0 + v2 + t1 + p2 + t2;
    assert t0 + v2 + rest == a3 + p3 + t3;
    AvoidsShorter(p2, p3);
    AvoidsConcat(t0, v2, p3);
    AvoidsConcat(t0 + v2, t1, p3);
    AvoidsConcat(t0 + v2 + t1, p2, p3);
    AvoidsConcat(t0 + v2 + t1 + p2, t2, p3);
    ReplaceAfter(a3, p3, t3, v3);
  }
}

=== FILE: text.dfy ===
/** String operations the routes use: `startsWith`, `slice`, `indexOf`,
    `replace` with a string pattern, `trim`, `split('@')[0]` and `String(n)`. */
module Text {
  import opened Wrappers

  predicate IsPrefix(p: string, s: string) {
    |p| <= |s| && s[..|p|] == p
  }

  /** `pat` occurs in `s` starting at index `i`. */
  predicate OccursAt(s: string, pat: string, i: int) {
    0 <= i && i + |pat| <= |s| && s[i..i + |pat|] == pat
  }

  ghost predicate Avoids(s: string, pat: string) {
    forall i :: !OccursAt(s, pat, i)
  }

  /** `s.indexOf(pat, from)`: the first occurrence at or after `from`. */
  function IndexFrom(s: string, pat: string, from: nat): (r: Option<nat>)
    decreases |s| - from
    ensures r.Some? ==> from <= r.value && OccursAt(s, pat, r.value)
    ensures r.Some? ==> forall j :: from <= j < r.value ==> !OccursAt(s, pat, j)
    ensures r.None? ==> forall j :: from <= j ==> !OccursAt(s, pat, j)
  {
    if from + |pat| > |s| then None
    else if s[from..from + |pat|] == pat then Some(from)
    else IndexFrom(s, pat, from + 1)
  }

  function IndexOf(s: string, pat: string): Option<nat> {
    IndexFrom(s, pat, 0)
  }

  /** `s.replace(pat, rep)` with a string pattern: only the first occurrence is
      replaced, and `s` is returned unchanged when `pat` does not occur. */
  function ReplaceFirst(s: string, pat: string, rep: string): (r: string)
    ensures IndexOf(s, pat).None? ==> r == s
    ensures IndexOf(s, pat).Some? ==>
      var i := IndexOf(s, pat).value;
      && |r| == |s| - |pat| + |rep|
      && r[..i] == s[..i]
      && OccursAt(r, rep, i)
      && r[i + |rep|..] == s[i + |pat|..]
  {
    match IndexOf(s, pat)
    case None => s
    case Some(i) => s[..i] + rep + s[i + |pat|..]
  }

  lemma PrefixOfConcat(p: string, s: string, t: string)
    requires IsPrefix(p, s)
    ensures IsPrefix(p, s + t)
  {
    assert (s + t)[..|p|] == s[..|p|];
  }

  /** A prefix that holds no occurrence and ends in a character foreign to
      the pattern survives a replacement: no occurrence can begin inside it. */
  lemma ReplaceKeepsPrefix(h: string, s: string, pat: string, rep: string)
    requires IsPrefix(h, s) && Avoids(h, pat)
    requires |h| == 0 || h[|h| - 1] !in pat
    ensures IsPrefix(h, ReplaceFirst(s, pat, rep))
  {
    match IndexOf(s, pat)
    case None =>
    case Some(i) =>
      if i < |h| && i + |pat| <= |h| {
        assert h[i..i + |pat|] == s[i..i + |pat|];
        assert OccursAt(h, pat, i);
      }
      assert ReplaceFirst(s, pat, rep)[..|h|] == s[..i][..|h|];
  }

  /** Replacing in a string that holds no occurrence leaves it as it is. */
  lemma ReplaceAbsent(s: string, pat: string, rep: string)
    requires Avoids(s, pat)
    ensures ReplaceFirst(s, pat, rep) == s
  {
  }

  /** When `pat` does not occur in `a`, and no occurrence can straddle the end
      of `a`, the first occurrence in `a + pat + b` is the one right after `a`. */
  lemma {:induction false} ReplaceAfter(a: string, pat: string, b: string, rep: string)
    requires Avoids(a, pat)
    requires |a| == 0 || a[|a| - 1] !in pat
    ensures ReplaceFirst(a + pat + b, pat, rep) == a + rep + b
  {
    var s := a + pat + b;
    assert s[|a|..|a| + |pat|] == pat;
    assert OccursAt(s, pat, |a|);
    forall j | 0 <= j < |a|
      ensures !OccursAt(s, pat, j)
    {
      if j + |pat| <= |a| {
        assert s[j..j + |pat|] == a[j..j + |pat|] && !OccursAt(a, pat, j);
      } else if |pat| > 0 && j + |pat| <= |s| {
        assert s[j..j + |pat|][|a| - 1 - j] == a[|a| - 1];
        assert pat[|a| - 1 - j] in pat;
      }
    }
    var r := IndexOf(s, pat);
    assert r == Some(|a|);
    assert s[..|a|] == a;
    assert s[|a| + |pat|..] == b;
  }

  /** No occurrence of `pat` in `x + y` when there is none in either part and
      no occurrence can cross the seam: one of the two characters around the
      seam is not in `pat`. */
  lemma AvoidsConcat(x: string, y: string, pat: string)
    requires Avoids(x, pat) && Avoids(y, pat)
    requires |x| == 0 || |y| == 0 || x[|x| - 1] !in pat || y[0] !in pat
    ensures Avoids(x + y, pat)
  {
    var s := x + y;
    forall i
      ensures !OccursAt(s, pat, i)
    {
      if 0 <= i && i + |pat| <= |x| {
        assert s[i..i + |pat|] == x[i..i + |pat|] && !OccursAt(x, pat, i);
      } else if i >= |x| && i + |pat| <= |s| {
        assert s[i..i + |pat|] == y[i - |x|..i - |x| + |pat|] && !OccursAt(y, pat, i - |x|);
      } else if 0 <= i < |x| && i + |pat| <= |s| {
        assert s[i..i + |pat|][|x| - 1 - i] == x[|x| - 1];
        assert s[i..i + |pat|][|x| - i] == y[0];
        assert pat[|x| - 1 - i] in pat && pat[|x| - i] in pat;
      }
    }
  }

  /** A pattern that starts with a character missing from `s` never occurs in it. */
  lemma AvoidsByFirstChar(s: string, pat: string)
    requires |pat| > 0 && pat[0] !in s
    ensures Avoids(s, pat)
  {
    forall i
      ensures !OccursAt(s, pat, i)
    {
      if 0 <= i < |s| {
        assert s[i] in s;
      }
    }
  }

  /** A pattern longer than `s` never occurs in it. */
  lemma AvoidsShorter(s: string, pat: string)
    requires |s| < |pat|
    ensures Avoids(s, pat)
  {
  }

  // ---------------------------------------------------------------- trimming

  /** White space removed by `String.prototype.trim`: the common ASCII and
      Unicode space characters and line terminators. */
  predicate IsSpace(c: char) {
    c in {' ', '\t', '\n', '\r', '\U{000B}', '\U{000C}', '\U{00A0}', '\U{1680}',
          '\U{2000}', '\U{2001}', '\U{2002}', '\U{2003}', '\U{2004}', '\U{2005}',
          '\U{2006}', '\U{2007}', '\U{2008}', '\U{2009}', '\U{200A}', '\U{2028}',
          '\U{2029}', '\U{202F}', '\U{205F}', '\U{3000}', '\U{FEFF}'}
  }

  /** No white space at either end. */
  predicate IsTrimmed(s: string) {
    |s| == 0 || (!IsSpace(s[0]) && !IsSpace(s[|s| - 1]))
  }

  predicate AllSpace(s: string) {
    forall i :: 0 <= i < |s| ==> IsSpace(s[i])
  }

  /** Number of white-space characters at the start of `s`. */
  function LeadingSpace(s: string): (n: nat)
    ensures n <= |s| && AllSpace(s[..n])
    ensures n < |s| ==> !IsSpace(s[n])
  {
    if |s| == 0 || !IsSpace(s[0]) then 0
    else
      var n := 1 + LeadingSpace(s[1..]);
      assert s[..n] == [s[0]] + s[1..][..n - 1];
      n
  }

  /** Number of white-space characters at the end of `s`. */
  function TrailingSpace(s: string): (n: nat)
    ensures n <= |s| && AllSpace(s[|s| - n..])
    ensures n < |s| ==> !IsSpace(s[|s| - 1 - n])
  {
    if |s| == 0 || !IsSpace(s[|s| - 1]) then 0
    else
      var n := 1 + TrailingSpace(s[..|s| - 1]);
      assert s[|s| - n..] == s[..|s| - 1][|s| - n..] + [s[|s| - 1]];
      n
  }

  /** `r` is `s` less a white-space prefix of length `a` and a white-space suffix. */
  ghost predicate StripsTo(s: string, a: nat, r: string) {
    && a + |r| <= |s| && s[a..a + |r|] == r
    && AllSpace(s[..a]) && AllSpace(s[a + |r|..])
  }

  /** `s.trim()`: `s` with its leading and trailing white space removed. */
  function Trim(s: string): (r: string)
    ensures IsTrimmed(r)
    ensures |r| == 0 <==> AllSpace(s)
    ensures IsTrimmed(s) ==> r == s
    ensures StripsTo(s, LeadingSpace(s), r)
  {
    var a := LeadingSpace(s);
    var rest := s[a..];
    var r := rest[..|rest| - TrailingSpace(rest)];
    TrimFacts(s, a, r);
    r
  }

  lemma TrimFacts(s: string, a: nat, r: string)
    requires a == LeadingSpace(s)
    requires r == s[a..][..|s[a..]| - TrailingSpace(s[a..])]
    ensures IsTrimmed(r)
    ensures |r| == 0 <==> AllSpace(s)
    ensures IsTrimmed(s) ==> r == s
    ensures StripsTo(s, a, r)
  {
    TrimStrips(s, a, r);
    TrimEnds(s, a, r);
    TrimEmptyIffBlank(s, a, r);
    TrimOfTrimmed(s, a, r);
  }

  lemma TrimStrips(s: string, a: nat, r: string)
    requires a == LeadingSpace(s)
    requires r == s[a..][..|s[a..]| - TrailingSpace(s[a..])]
    ensures StripsTo(s, a, r)
  {
    var rest := s[a..];
    var b := TrailingSpace(rest);
    assert s[a..a + |r|] == r;
    assert s[a + |r|..] == rest[|rest| - b..];
  }

  lemma TrimEnds(s: string, a: nat, r: string)
    requires a == LeadingSpace(s)
    requires r == s[a..][..|s[a..]| - TrailingSpace(s[a..])]
    ensures IsTrimmed(r)
  {
    var rest := s[a..];
    var b := TrailingSpace(rest);
    if |r| > 0 {
      assert r[0] == s[a];
      assert r[|r| - 1] == rest[|rest| - 1 - b];
    }
  }

  lemma TrimOfTrimmed(s: string, a: nat, r: string)
    requires a == LeadingSpace(s)
    requires r == s[a..][..|s[a..]| - TrailingSpace(s[a..])]
    ensures IsTrimmed(s) ==> r == s
  {
    if IsTrimmed(s) && |s| > 0 {
      assert a == 0;
      assert s[a..] == s;
      var b := TrailingSpace(s);
      assert b == 0;
    }
  }

  lemma TrimEmptyIffBlank(s: string, a: nat, r: string)
    requires a == LeadingSpace(s)
    requires r == s[a..][..|s[a..]| - TrailingSpace(s[a..])]
    ensures |r| == 0 <==> AllSpace(s)
  {
    var rest := s[a..];
    var b := TrailingSpace(rest);
    if |r| == 0 {
      assert a == |s|;
      assert s[..a] == s;
    }
    if AllSpace(s) {
      assert a == |s|;
    }
  }

  /** Trimming twice is trimming once. */
  lemma TrimIdempotent(s: string)
    ensures Trim(Trim(s)) == Trim(s)
  {
  }

  // -------------------------------------------------------- character search

  /** Index of the first `c` in `s`, if any. */
  function FirstIndexOf(s: string, c: char): (r: Option<nat>)
    ensures r.Some? ==> r.value < |s| && s[r.value] == c
    ensures r.Some? ==> forall k :: 0 <= k < r.value ==> s[k] != c
    ensures r.None? ==> c !in s
  {
    if |s| == 0 then None
    else if s[0] == c then Some(0)
    else match FirstIndexOf(s[1..], c)
      case None => None
      case Some(i) => Some(i + 1)
  }

  /** Index of the last `c` in `s`, if any. */
  function LastIndexOf(s: string, c: char): (r: Option<nat>)
    ensures r.Some? ==> r.value < |s| && s[r.value] == c
    ensures r.Some? ==> forall k :: r.value < k < |s| ==> s[k] != c
    ensures r.None? ==> c !in s
  {
    if |s| == 0 then None
    else if s[|s| - 1] == c then Some(|s| - 1)
    else LastIndexOf(s[..|s| - 1], c)
  }

  /** `s.split(sep)[0]`: the text before the first `sep`, or all of `s`. */
  function BeforeFirst(s: string, sep: char): (r: string)
    ensures IsPrefix(r, s) && sep !in r
    ensures |r| < |s| ==> s[|r|] == sep
  {
    match FirstIndexOf(s, sep)
    case None => s
    case Some(i) => s[..i]
  }

  // ----------------------------------------------------------- decimal text

  function DigitChar(d: nat): (c: char)
    requires d < 10
    ensures '0' <= c <= '9'
  {
    "0123456789"[d]
  }

  function DigitValue(c: char): nat
    requires '0' <= c <= '9'
  {
    (c as int - '0' as int) as nat
  }

  predicate IsDigits(s: string) {
    forall i :: 0 <= i < |s| ==> '0' <= s[i] <= '9'
  }

  /** The value of a string of decimal digits. */
  function DecimalValue(s: string): nat
    requires IsDigits(s)
  {
    if |s| == 0 then 0
    else 10 * DecimalValue(s[..|s| - 1]) + DigitValue(s[|s| - 1])
  }

  /** `String(n)` for a non-negative integer: its shortest decimal numeral. */
  function NatToString(n: nat): (r: string)
    ensures |r| > 0 && IsDigits(r)
    ensures |r| > 1 ==> r[0] != '0'
  {
    if n < 10 then [DigitChar(n)]
    else NatToString(n / 10) + [DigitChar(n % 10)]
  }

  /** `String(n)` for any integer. */
  function IntToString(n: int): (r: string)
    ensures |r| > 0 && '{' !in r
  {
    if n < 0 then "-" + NatToString(-n) else NatToString(n)
  }

  /** Reading back the numeral of `n` gives `n`. */
  lemma {:induction false} NatToStringRoundTrip(n: nat)
    ensures DecimalValue(NatToString(n)) == n
  {
    var r := NatToString(n);
    if n < 10 {
      assert DigitValue("0123456789"[n]) == n;
    } else {
      NatToStringRoundTrip(n / 10);
      assert r[..|r| - 1] == NatToString(n / 10);
      assert DigitValue("0123456789"[n % 10]) == n % 10;
    }
  }
}

=== FILE: tokens.dfy ===
/** The token boundary of `lib/auth.ts` and the `Authorization: Bearer` header
    check repeated at the top of every authenticated route. */
module Tokens {
  import opened Wrappers
  import opened Text

  /** The claims signed into a session token. */
  datatype JwtPayload = JwtPayload(userId: int, email: string, role: string)

  /** `verifyToken`: the payload of a valid token, or `None` where the library throws. */
  type Verifier = string -> Option<JwtPayload>

  /** `signToken`: the library adds the issue time and the expiry seven days
      later to the claims, so the token depends on the second it is signed in
      as well as on the payload. */
  type Signer = (JwtPayload, int) -> string

  const BearerPrefix := "Bearer "

  /** The token carried by an `authorization` header: present only when the
      header starts, case-sensitively, with `Bearer `, and then the header less
      its first seven characters (`authHeader.slice(7)`). */
  function BearerToken(header: Option<string>): (t: Option<string>)
    ensures t.Some? <==> header.Some? && IsPrefix(BearerPrefix, header.value)
    ensures t.Some? ==> header.value == BearerPrefix + t.value
  {
    if header.Some? && IsPrefix(BearerPrefix, header.value) then
      var h := header.value;
      assert h == h[..7] + h[7..];
      Some(h[7..])
    else None
  }

  /** A bearer token always comes back from the header built around it. */
  lemma BearerRoundTrip(token: string)
    ensures BearerToken(Some(BearerPrefix + token)) == Some(token)
  {
    assert (BearerPrefix + token)[..|BearerPrefix|] == BearerPrefix;
  }
}

=== FILE: user_profile.dfy ===
/** `GET` and `PATCH /api/user/profile`: reading the caller's profile and
    changing their nickname. */
module UserProfile {
  import opened Wrappers
  import opened Http
  import opened Text
  import opened Tokens
  import opened Users

  const UnknownUser := "用户不存在"
  const NicknameTooLong := "昵称不能超过20个字符"
  const MaxNickname := 20

  /** `getUserId`: the user id of a verified bearer token. */
  function GetUserId(header: Option<string>, verify: Verifier): (r: Option<int>)
    ensures r.Some? <==> BearerToken(header).Some? && verify(BearerToken(header).value).Some?
    ensures r.Some? ==> exists token :: header == Some(BearerPrefix + token)
                                        && r.value == verify(token).value.userId
  {
    match BearerToken(header)
    case None => None
    case Some(token) =>
      match verify(token)
      case None => None
      case Some(p) => Some(p.userId)
  }

  /** `!userId`: no id, or the id 0. */
  predicate NoUser(id: Option<int>) {
    id.None? || id.value == 0
  }

  /** What `GET` returns: the public fields and the creation time. */
  datatype Profile = Profile(id: int, email: string, nickname: Option<string>, role: string, createdAt: int)

  function Get(header: Option<string>, verify: Verifier, s: Store): (r: Response<Profile>)
    ensures NoUser(GetUserId(header, verify)) ==> r == Fail(401, NotLoggedIn)
    ensures !NoUser(GetUserId(header, verify)) ==>
      var id := GetUserId(header, verify).value;
      && (Lookup(s.users, ById(id)).None? <==> r == Fail(404, UnknownUser))
      && (Lookup(s.users, ById(id)).Some? ==>
            var u := s.users[Lookup(s.users, ById(id)).value];
            r == Ok(Profile(u.id, u.email, u.nickname, u.role, u.createdAt)))
  {
    var id := GetUserId(header, verify);
    if NoUser(id) then Fail(401, NotLoggedIn)
    else
      match Lookup(s.users, ById(id.value))
      case None => Fail(404, UnknownUser)
      case Some(i) =>
        var u := s.users[i];
        Ok(Profile(u.id, u.email, u.nickname, u.role, u.createdAt))
  }

  /** A nickname the route accepts: a string at most 20 characters long once trimmed. */
  predicate AcceptedNickname(n: Option<string>) {
    n.Some? && |Trim(n.value)| <= MaxNickname
  }

  /** `nickname.trim() || null`. */
  function Normalise(n: string): (r: Option<string>)
    ensures r.None? <==> AllSpace(n)
    ensures r.Some? ==> r.value != "" && IsTrimmed(r.value) && r.value == Trim(n)
  {
    if Trim(n) == "" then None else Some(Trim(n))
  }

  /** A stored nickname is a fixed point: submitting it again stores it again. */
  lemma NormaliseIdempotent(n: string)
    requires Normalise(n).Some?
    ensures Normalise(Normalise(n).value) == Normalise(n)
  {
    TrimIdempotent(n);
  }

  /** An accepted nickname is stored within the length limit. */
  lemma NormalisedWithinLimit(n: Option<string>)
    requires AcceptedNickname(n)
    ensures Normalise(n.value).None? || |Normalise(n.value).value| <= MaxNickname
  {
  }

  /** The nickname change. A missing id is 401; an unreadable body is an
      unhandled error; a non-string or over-long nickname is 400; an id with
      no row makes the update throw; otherwise only that row's nickname
      changes. */
  function Patch(header: Option<string>, verify: Verifier, nickname: Option<Option<string>>, s: Store)
    : (r: (Store, Response<PublicUser>))
    ensures NoUser(GetUserId(header, verify)) ==> r == (s, Fail(401, NotLoggedIn))
    ensures !NoUser(GetUserId(header, verify)) && nickname.None? ==> r == (s, Unhandled())
    ensures !NoUser(GetUserId(header, verify)) && nickname.Some? && !AcceptedNickname(nickname.value) ==>
      r == (s, Fail(400, NicknameTooLong))
    ensures r.1.status == 200 <==>
      !NoUser(GetUserId(header, verify)) && nickname.Some? && AcceptedNickname(nickname.value)
      && Lookup(s.users, ById(GetUserId(header, verify).value)).Some?
    ensures r.1.status == 200 ==>
      var i := Lookup(s.users, ById(GetUserId(header, verify).value)).value;
      var u := s.users[i].(nickname := Normalise(nickname.value.value));
      && r.0 == s.(users := s.users[i := u])
      && r.1 == Ok(Public(u))
    ensures r.1.status != 200 ==> r.0 == s
  {
    var id := GetUserId(header, verify);
    if NoUser(id) then (s, Fail(401, NotLoggedIn))
    else
      match nickname
      case None => (s, Unhandled())
      case Some(n) =>
        if !AcceptedNickname(n) then (s, Fail(400, NicknameTooLong))
        else
          match Lookup(s.users, ById(id.value))
          case None => (s, Unhandled())
          case Some(i) =>
            var u := s.users[i].(nickname := Normalise(n.value));
            (s.(users := s.users[i := u]), Ok(Public(u)))
  }

  /** A nickname change touches nothing but that one nickname, and keeps the
      table's constraints. */
  lemma PatchChangesOnlyNickname(header: Option<string>, verify: Verifier, nickname: Option<Option<string>>,
                                 s: Store)
    requires Valid(s)
    ensures var s' := Patch(header, verify, nickname, s).0;
      && Valid(s') && |s'.users| == |s.users| && s'.nextId == s.nextId
      && forall k :: 0 <= k < |s.users| ==> s'.users[k] == s.users[k].(nickname := s'.users[k].nickname)
  {
  }

  /** After a successful change, reading the profile shows the normalised
      nickname next to the unchanged id, email, role and creation time. */
  lemma PatchThenGet(header: Option<string>, verify: Verifier, nickname: Option<Option<string>>, s: Store)
    requires Valid(s)
    requires Patch(header, verify, nickname, s).1.status == 200
    ensures var s' := Patch(header, verify, nickname, s).0;
      var u := s.users[Lookup(s.users, ById(GetUserId(header, verify).value)).value];
      Get(header, verify, s')
        == Ok(Profile(u.id, u.email, Normalise(nickname.value.value), u.role, u.createdAt))
  {
    var s' := Patch(header, verify, nickname, s).0;
    var id := GetUserId(header, verify).value;
    var i := Lookup(s.users, ById(id)).value;
    IdIndexUnique(s', id, i);
  }

  /** In a valid table the row holding an id is the only one. */
  lemma IdIndexUnique(s: Store, id: int, i: nat)
    requires Valid(s) && i < |s.users| && s.users[i].id == id
    ensures Lookup(s.users, ById(id)) == Some(i)
  {
  }
}

=== FILE: users.dfy ===
/** The user table shared by the account and profile routes. */
module Users {
  import opened Wrappers

  /** A row of the user table; `createdAt` is a timestamp supplied by the
      database when the row is inserted. */
  datatype User = User(id: int, email: string, passwordHash: string, nickname: Option<string>,
                       role: string, createdAt: int)

  /** The table and the next auto-increment id. */
  datatype Store = Store(users: seq<User>, nextId: int)

  /** The table's constraints: unique emails, unique positive ids, and every
      id below the next one to be assigned. */
  predicate Valid(s: Store) {
    && (forall k :: 0 <= k < |s.users| ==> 1 <= s.users[k].id < s.nextId)
    && (forall k, l :: 0 <= k < l < |s.users| ==> s.users[k].id != s.users[l].id)
    && (forall k, l :: 0 <= k < l < |s.users| ==> s.users[k].email != s.users[l].email)
  }

  /** The two unique columns a user is looked up by. */
  datatype Key = ByEmail(email: string) | ById(id: int)

  predicate Has(u: User, key: Key) {
    match key
    case ByEmail(email) => u.email == email
    case ById(id) => u.id == id
  }

  /** `findUnique({ where: { email } })` and `findUnique({ where: { id } })`:
      the position of a row with the key, if there is one. */
  function Lookup(users: seq<User>, key: Key): (r: Option<nat>)
    ensures r.None? <==> forall k :: 0 <= k < |users| ==> !Has(users[k], key)
    ensures r.Some? ==> r.value < |users| && Has(users[r.value], key)
  {
    if |users| == 0 then None
    else if Has(users[|users| - 1], key) then Some(|users| - 1)
    else Lookup(users[..|users| - 1], key)
  }

  /** The user fields a response may carry: no password, no timestamp. */
  datatype PublicUser = PublicUser(id: int, email: string, nickname: Option<string>, role: string)

  function Public(u: User): PublicUser {
    PublicUser(u.id, u.email, u.nickname, u.role)
  }
}

=== FILE: wrappers.dfy ===
/** Failure-compatible wrappers shared by every module of the model. */
module Wrappers {

  /** A value that may be absent: a missing JSON field, a `null` column, a failed oracle call. */
  datatype Option<+T> = None | Some(value: T) {

    /** The wrapped value, or `default` when absent. */
    function GetOr(default: T): T {
      match this
      case Some(v) => v
      case None => default
    }
  }

  /** The outcome of a step that either produces a value or a failure description. */
  datatype Result<+R, +E> = Success(value: R) | Failure(error: E)

  /** JavaScript truthiness of an optional string: absent and "" are both falsy. */
  predicate Truthy(s: Option<string>) {
    s.Some? && s.value != ""
  }
}
